=== FILE: README.md ===
# yahoo-symbols-archive in Dafny

This project models the deterministic core of the yahoo-symbols-archive
downloader. The downloader builds every short query over a 38-symbol
alphabet, sends one Yahoo Finance lookup request per query through a small
asynchronous HTTP engine, tags every result row with its query and
concatenates the pages.

The modules follow the program's structure:

- `Py` (py.dfy): the Python values the code passes around, namely None, int,
  str, bytes, list, tuple, dict and a data frame as a list of rows. It also
  holds the exceptions the code can raise and a `Result` type that carries
  them. `AsList` gives the items `len` and iteration see, `Index` models
  `xs[n]` and `GetItem` models `container[key]`.
- `Text` (text.dfy): `str.split`, `str.join`, `str.find` and the
  `len(p) > 0` filter.
- `Utils` (utils.dfy): `random_user_agent`, `random_proxy`, the user-agent
  list and the webshare proxy-list reader of `async_requests/utils.py`.
- `Broadcast` (broadcast.dfy): `_to_list`, `_extend_list`, and the way
  `AsyncRequests.requests` turns its arguments into one task per url.
- `Executor` (executor.dfy): `AsyncRequests._request` without I/O. It covers
  the header and proxy choice, status classification, body decoding, result
  shaping and the `backoff` retry with `max_tries=3`.
- `Merge` (merge.dfy): awaiting results in completion order, flattening
  keyed dicts and unwrapping a one-url batch.
- `Engine` (engine.dfy): `AsyncRequests.requests` as one function.
- `Combinations` (combinations.dfy): the alphabet and
  `itertools.product`.
- `YahooSymbols` (yahoo.dfy): `YahooSymbols.search` and
  `YahooSymbols.lookup`.
- `Download` (download.dfy): the query space of `download`, its 500-wide
  chunks, the labels `_get_lookup` reads, and the storage choice of `save`.

The outside world is passed in as parameters:

- every `random.choice` is an index `pick`;
- what the network answers to attempt `a` of task `n` is
  `Network.attempt(n, a)`;
- the order in which `asyncio.as_completed` yields the tasks is
  `Network.order`, which is any permutation of the task positions;
- the date `save` stamps into file names is the parameter `today`.

Where the code and its documentation disagree, the model follows the code:

- Argument lists of different lengths are not rejected up front. A list
  shorter than the url list fails with IndexError when it is indexed, and a
  longer one is cut.
- An HTTP status of 500 or more raises the same retryable `ClientError` as a
  4xx status, because the `>= 500` test comes after the `>= 400` one.
- The first failed task met in completion order ends the whole batch with
  its exception.
- `search([])` raises IndexError, because the url string is broadcast
  against an empty params list.
- `download(max_combination_length=0)` produces a single empty chunk, so
  `_get_lookup` raises IndexError.

## Model

| member | source | states |
|---|---|---|
| Py.AsList | async_requests/async_requests.py:166 | lists and tuples expose their elements, bytes their integer codes and strings their one-character substrings; None and ints are not sequences (TypeError); a dict is wrapped in a list before `len` and no modelled call site indexes a frame by position, so both are also reported as TypeError |
| Py.Index | async_requests/async_requests.py:186-191 | `xs[n]` succeeds exactly for an int from -len to len-1, negative ones counting from the end; IndexError out of range, TypeError for a non-int index |
| Py.GetItem | async_requests/async_requests.py:214 | on a dict, succeeds exactly for a hashable key it holds, with KeyError for an absent key and TypeError for an unhashable one; on a sequence it is `Index` on its items; None, ints and frames raise TypeError |
| Broadcast.ToList | async_requests/async_requests.py:23-29 | a str or dict becomes a one-element list, None becomes `[None]`, any other value is returned unchanged |
| Broadcast.ToListIdempotent | async_requests/async_requests.py:23-29 | applying `_to_list` twice gives the same as applying it once |
| Broadcast.ExtendList | async_requests/async_requests.py:32-36 | a one-element list becomes exactly `max_len` copies of its element; any other list is returned unchanged, even when its length is not `max_len` |
| Broadcast.MaxLen | async_requests/async_requests.py:166 | the result is one of the five lengths and no smaller than any of them |
| Broadcast.Normalize | async_requests/async_requests.py:160-172 | succeeds exactly when every argument is a list after `_to_list`, otherwise TypeError; each argument list is broadcast to the longest length |
| Broadcast.Tasks | async_requests/async_requests.py:181-197 | one task per url position holding the fields at that position; IndexError exactly when another list is shorter than the url list |
| Broadcast.Plan | async_requests/async_requests.py:160-197 | TypeError exactly when some argument has no length after `_to_list`; otherwise IndexError or one task per position of the broadcast url list (its own length, or the longest length for a single url), every task field taken from its own argument's list |
| Broadcast.AlignedBroadcast | async_requests/async_requests.py:160-197 | when every argument is a single value or a list of a common length n, exactly n tasks are made; task i takes element i of each list and the single value of each scalar |
| Broadcast.ScalarUrlWithParamList | async_requests/async_requests.py:160-197 | one url string with a list of n params gives n tasks to that url, with data, json and key None |
| Broadcast.MismatchedLengths | async_requests/async_requests.py:181-197 | a url list longer than the params list raises IndexError; a shorter one silently cuts the params list |
| Broadcast.IntKeyIsTypeError | async_requests/async_requests.py:164-166 | an int key is left unwrapped by `_to_list`, so `len` raises TypeError |
| Executor.WithCallHeaders | async_requests/async_requests.py:157-158 | headers passed to the call replace the stored ones; None keeps them; the proxy flag is untouched |
| Executor.ChooseHeadersAndProxy | async_requests/async_requests.py:84-90 | stored headers win over a random user agent drawn from the pool; with the random-proxy flag, a proxy from the pool replaces the caller's; an empty pool raises IndexError |
| Executor.Classify | async_requests/async_requests.py:101-104 | a status fails exactly when it is 400 or more, always with `ClientError(status)` |
| Executor.ServerErrorBranchUnreachable | async_requests/async_requests.py:101-104 | no status ever yields `ServerConnectionError`; a 5xx status raises ClientError |
| Executor.DecodeBody | async_requests/async_requests.py:105-111 | "json" uses the JSON decoder, "text" the text decoder, and any other return type, including none, the raw bytes |
| Executor.Shape | async_requests/async_requests.py:113-121 | with a parse function, `parse(key, body)` or `parse(body)` depending on the key; without one, `{key: body}` or the bare body, and TypeError for an unhashable key (a list, dict or frame, or a tuple holding one) |
| Executor.Attempt | async_requests/async_requests.py:84-121 | a pool error, a transport error or an error status fails the attempt; a response below 400 gives the shaped decoded body, or the decoder's exception when the body cannot be decoded; a success means exactly that path was taken |
| Executor.ErrorStatusIsRetryable | async_requests/async_requests.py:64-69 | every error status response is retried by the backoff decorator |
| Executor.Retry | async_requests/async_requests.py:64-69 | between 1 and 3 attempts are made; every attempt before the deciding one raised a ClientError; fewer than 3 attempts means the last one did not |
| Executor.RetryLoop | async_requests/async_requests.py:64-69 | the same contract as `Retry`, reached by the attempt loop itself |
| Executor.FailTwiceThenSucceed | async_requests/async_requests.py:64-121 | two ClientErrors followed by a response below 400 with a decodable body give that body, shaped |
| Executor.FirstGoodResponseDecides | async_requests/async_requests.py:64-121 | a first response below 400 with a decodable body decides the task as its shaped body, unless shaping raises a ClientError |
| Executor.FailEveryAttempt | async_requests/async_requests.py:64-69 | three ClientErrors make the task fail with the third one |
| Executor.FirstSettledAttemptDecides | async_requests/async_requests.py:64-69 | the first attempt that does not raise a ClientError decides the task |
| Executor.ExecutedValueIsShaped | async_requests/async_requests.py:64-121 | a successful task's value is the shaped decoded body of one attempt whose pool draw succeeded and whose response was below 400 |
| Merge.Collect | async_requests/async_requests.py:207-208 | succeeds exactly when every task in the order succeeded; its values follow completion order; a failure is one of the tasks' own exceptions |
| Merge.CollectOnPermutation | async_requests/async_requests.py:207-208 | over a permutation, collection succeeds exactly when every task succeeded |
| Merge.Lookups | async_requests/async_requests.py:214 | the dict holds exactly the given keys, each mapped to the element it selects; it fails exactly when some subscription fails, with the first failure's exception |
| Merge.Entries | async_requests/async_requests.py:214 | a dict contributes its own entries; a list or tuple succeeds exactly when every element is an in-range int index, pairing each with the element it selects; bytes exactly when every code is a position; a string only when empty; None and ints raise TypeError |
| Merge.EntryMaps | async_requests/async_requests.py:214 | one entry map per result in order; it fails exactly when some result cannot be read, with the first failure |
| Merge.Union | async_requests/async_requests.py:214 | exactly the keys of all maps, each with its value in the last map holding it |
| Merge.Flatten | async_requests/async_requests.py:213-214 | succeeds exactly when every result can be iterated and subscripted, otherwise raises the first failure; the keys are all keys contributed, each mapped to its value in the last result contributing it |
| Merge.Finalize | async_requests/async_requests.py:210-219 | an empty key list raises IndexError; a non-None first key with a dict first result flattens all results, failing exactly when one of them cannot be read; otherwise a one-url batch is unwrapped and a larger one stays a list |
| Merge.FinalizeReadsFirstKey | async_requests/async_requests.py:210-217 | of the key list, only the first key affects the result |
| Merge.KeyedMergeIgnoresOrder | async_requests/async_requests.py:199-219 | with distinct non-None keys, the merged dict pairs each key with its own request's body, whatever the completion order |
| Merge.LaterDictWins | async_requests/async_requests.py:213-214 | of two dicts holding the same key, the merge keeps the value from the later one |
| Merge.CollisionLastCompletedWins | async_requests/async_requests.py:199-219 | two requests under the same key merge to the body of whichever completed last, in both orders |
| Merge.MergedSizeCountsDistinctKeys | async_requests/async_requests.py:199-219 | the merged dict's keys are exactly the request keys, so it has as many entries as requests exactly when the keys are distinct |
| Merge.KeyedMergedKeys | async_requests/async_requests.py:199-219 | flattening the keyed results succeeds, and its keys are exactly the request keys |
| Merge.DistinctCount | async_requests/async_requests.py:199-219 | a key list has at most as many distinct members as entries, and exactly as many exactly when no key repeats |
| Merge.ListResultIsMerged | async_requests/async_requests.py:213-214 | a list of in-range indices among the results merges beside the keyed dict, each index paired with the element it selects |
| Merge.StringResultIsTypeError | async_requests/async_requests.py:213-214 | a non-empty string among the keyed results makes the merge raise TypeError |
| Merge.SingleUnkeyedIsUnwrapped | async_requests/async_requests.py:216-217 | a one-url unkeyed batch returns its result itself, not a one-element list |
| Merge.SingleKeyedIsOneEntryDict | async_requests/async_requests.py:213-217 | a one-url keyed batch returns the one-entry dict |
| Merge.UnkeyedKeepsCompletionOrder | async_requests/async_requests.py:207-219 | unkeyed results stay a list in completion order, not submission order |
| Engine.Gather | async_requests/async_requests.py:199-219 | a success means every task succeeded; any failed task makes the call fail with the exception of the first failure in completion order; when all succeeded, their values in completion order are merged or unwrapped |
| Engine.Run | async_requests/async_requests.py:160-219 | the call raises the broadcasting error whatever the network does; otherwise the call fails with the first failed task in completion order if any task failed, and a success means all succeeded and their values in completion order were merged or unwrapped |
| Engine.Requests | async_requests/async_requests.py:123-219 | the call's headers are stored before the tasks run and stay stored afterwards |
| Engine.CallHeadersPersist | async_requests/async_requests.py:157-158 | headers given to one call are used by a later call that gives none |
| Engine.SameAttemptsSameOutcomes | async_requests/async_requests.py:181-208 | the task outcomes depend on what the network answers to each attempt, not on the completion order |
| Engine.KeyedRun | async_requests/async_requests.py:113-121 | a keyed request without a parse function whose tasks all succeed returns the dict pairing every task key with its own body |
| Engine.KeyedRequestsIgnoreOrder | async_requests/async_requests.py:123-219 | such a request with distinct keys gives the same dict for any completion order, with exactly the task keys as its keys |
| Engine.SingleUnkeyedRequest | async_requests/async_requests.py:123-219 | a call creating one unkeyed task returns that task's outcome, unwrapped |
| Utils.Choice | async_requests/utils.py:30 | `random.choice` returns a member of the pool and raises IndexError exactly for an empty pool |
| Utils.ChoiceReachesEveryMember | async_requests/utils.py:30 | every member of the pool can be drawn |
| Utils.RandomUserAgent | async_requests/utils.py:23-35 | a pool member, as `{"user-agent": ua}` when `as_dict` and as the string otherwise |
| Utils.RandomProxy | async_requests/utils.py:38-45 | None for None, the string itself for a string, a member of the list for a list |
| Utils.UserAgentList | async_requests/utils.py:17-20 | one entry per line: one more entry than newlines; joining them gives the text back |
| Utils.ProxyFields | async_requests/utils.py:56 | the first four colon fields under ip, port, user and pw; extra fields are dropped |
| Utils.FormatProxy | async_requests/utils.py:58-61 | `http://user:pw@ip:port`, or KeyError exactly when a field is missing |
| Utils.FormatLine | async_requests/utils.py:55-61 | a line with at least four fields gives the URI of its first four; fewer raise KeyError |
| Utils.ExportLines | async_requests/utils.py:54 | every line kept is non-empty and free of CRLF, and a string is kept exactly when it is a non-empty piece between CRLFs |
| Utils.FormatAll | async_requests/utils.py:55-61 | one URI per line in order, each that line's own formatting, or KeyError if any line is short |
| Utils.WebshareProxyList | async_requests/utils.py:48-62 | the CRLF-separated non-empty lines, each turned into its URI in order |
| Utils.WebshareExportRoundTrip | async_requests/utils.py:48-62 | reading back an export of `ip:port:user:pw` lines yields each entry's `http://user:pw@ip:port`, in order |
| Text.Find | async_requests/utils.py:54 | the first index where the separator occurs, or none exactly when it does not occur |
| Text.Split | async_requests/utils.py:54 | at least one piece; joining the pieces with the separator gives the input back; no piece holds the separator |
| Text.SplitJoin | async_requests/utils.py:54-56 | splitting a join of pieces free of a border-free separator gives the pieces back |
| Text.SplitCharCount | async_requests/utils.py:20 | splitting on one character gives one more piece than occurrences of it |
| Text.NonEmpty | async_requests/utils.py:54 | exactly the non-empty strings of the input are kept |
| Text.NonEmptyAppend | async_requests/utils.py:54 | the filter keeps input order: it distributes over concatenation |
| Text.NonEmptyKeepsAll | async_requests/utils.py:54 | a list without empty strings passes unchanged |
| Combinations.AlphabetShape | yahoo_symbols/yahoo_symbols.py:55-57 | the alphabet is a-z, 0-9, '.', '-' in this order, 38 symbols, none repeated |
| Combinations.Rank | yahoo_symbols/yahoo_symbols.py:57 | the position of the first occurrence of a symbol in the alphabet |
| Combinations.Product | yahoo_symbols/yahoo_symbols.py:59-61 | every string of the product has n symbols (none for n of 0 or less) |
| Combinations.ProductLength | yahoo_symbols/yahoo_symbols.py:59-61 | the product of n copies of the alphabet has `|alpha|^n` strings |
| Combinations.ProductMembers | yahoo_symbols/yahoo_symbols.py:59-61 | a string is in the product exactly when it has n symbols, all from the alphabet |
| Combinations.ProductSorted | yahoo_symbols/yahoo_symbols.py:59-61 | over an alphabet without repeats, the product is strictly increasing by symbol position, last symbol fastest |
| Combinations.SortedHasNoDuplicates | yahoo_symbols/yahoo_symbols.py:59-61 | a strictly sorted list has no repeated entry |
| Combinations.LookupQuerySpace | yahoo_symbols/yahoo_symbols.py:55-61 | `lookup` generates 38^n queries: exactly the n-symbol words, sorted, none twice |
| Combinations.NonPositiveLengthIsEmptyQuery | yahoo_symbols/yahoo_symbols.py:59-61 | a length of 0 or less gives the single empty query |
| YahooSymbols.Queries | yahoo_symbols/yahoo_symbols.py:29-30 | a string query becomes a one-element list; a list stays as it is |
| YahooSymbols.TypeParam | yahoo_symbols/yahoo_symbols.py:31-32 | one type is sent as it is, an empty list as "", and a list of comma-free types as a string that splits back on "," into the same types |
| YahooSymbols.TypeListRoundTrip | yahoo_symbols/yahoo_symbols.py:31-32 | a type list joined with "," splits back into the same types when no type contains a comma |
| YahooSymbols.SearchParams | yahoo_symbols/yahoo_symbols.py:35-41 | exactly the five fields formatted="false", query, type, count=10000 and start=0 |
| YahooSymbols.ParamsList | yahoo_symbols/yahoo_symbols.py:34-43 | one params record per query, in query order |
| YahooSymbols.Documents | yahoo_symbols/yahoo_symbols.py:25 | only a dict response holding "finance" can succeed; a dict without it raises KeyError and a non-dict TypeError; every failure is a KeyError, IndexError or TypeError |
| YahooSymbols.DocumentsOfPage | yahoo_symbols/yahoo_symbols.py:25 | the documents are read back from a page `{"finance": {"result": [{"documents": d}]}}` |
| YahooSymbols.ParseDocuments | yahoo_symbols/yahoo_symbols.py:24-27 | one row per document, each with its `query` column set to the key and the other columns unchanged; failure exactly when the documents path is missing or is not a list of dicts |
| YahooSymbols.Rows | yahoo_symbols/yahoo_symbols.py:48-49 | the rows of all frames, frame after frame: as many rows as the frames hold together, frame `i`'s `j`-th row at the offset of the frames before it plus `j`; so a row is in the result exactly when it is in one of the frames |
| YahooSymbols.RowsStep | yahoo_symbols/yahoo_symbols.py:48-49 | appending the last frame's rows to a layout of the earlier frames lays out all the frames, each row at its frame's offset |
| YahooSymbols.ConcatFrames | yahoo_symbols/yahoo_symbols.py:48-49 | no frames raise ValueError and a non-frame raises TypeError; otherwise one frame with every row of every frame, in frame order and with its multiplicity, and no other row |
| YahooSymbols.SearchRequest | yahoo_symbols/yahoo_symbols.py:45-47 | the lookup URL, one params record per query in order, the queries as keys, the parse function, no proxy and the json return type |
| YahooSymbols.Search | yahoo_symbols/yahoo_symbols.py:23-50 | a successful search searched at least one query, made one request per query, and returns the concatenation, in completion order, of the frames those requests returned: each row as often as its frame holds it, and a row is present exactly when some request's frame holds it |
| YahooSymbols.SingleQuerySearch | yahoo_symbols/yahoo_symbols.py:23-50 | a search for one query returns exactly that query's frame |
| YahooSymbols.SearchRunRows | yahoo_symbols/yahoo_symbols.py:45-49 | a successful engine call returns one query's frame as it is, or the list of per-query frames in completion order, whose concatenation is the one the search returns |
| YahooSymbols.GatherFrames | async_requests/async_requests.py:207-219 | frame results are never merged: one is unwrapped and several stay a list in completion order, whose concatenation holds every task frame's rows with their multiplicity |
| YahooSymbols.CompletedRows | async_requests/async_requests.py:207 | concatenating the task frames in completion order gives a frame with exactly the task frames' rows |
| YahooSymbols.CompletedMembers | async_requests/async_requests.py:207 | a row is in some frame of the completion order exactly when it is in some task's frame |
| YahooSymbols.SearchPlan | yahoo_symbols/yahoo_symbols.py:34-47 | one request per query to the lookup URL, with that query's params and keyed by the query |
| YahooSymbols.EmptyQueryListPlan | async_requests/async_requests.py:181-196 | with a single url and no params, creating the first request raises IndexError |
| YahooSymbols.EmptyQueryListFails | yahoo_symbols/yahoo_symbols.py:29-47 | an empty query list makes the search fail with IndexError |
| YahooSymbols.TaskOutcomeTagged | yahoo_symbols/yahoo_symbols.py:24-27 | a successful request's frame has every row tagged with that request's own query |
| YahooSymbols.TaskOutcomeIsParsedPage | yahoo_symbols/yahoo_symbols.py:24-27 | a successful request's frame is `parse_func(query, page)` for the json page of one attempt that got a response: its documents, each tagged with the query |
| YahooSymbols.ConcatTagged | yahoo_symbols/yahoo_symbols.py:48-49 | concatenating tagged frames keeps every row tagged |
| YahooSymbols.GatheredFrames | yahoo_symbols/yahoo_symbols.py:45-47 | the engine returns one tagged frame, or a list of tagged frames |
| YahooSymbols.GatherTagged | async_requests/async_requests.py:213-217 | frames are not dicts, so results that are all tagged frames are never merged: one is unwrapped and several stay a list of tagged frames |
| YahooSymbols.SearchRowsTagged | yahoo_symbols/yahoo_symbols.py:23-50 | every row a successful search returns carries one of the searched queries in its `query` column |
| YahooSymbols.LookupQueries | yahoo_symbols/yahoo_symbols.py:55-61 | 38^n queries (the one empty query for n of 0 or less): exactly the words of n alphabet symbols, sorted, none twice |
| YahooSymbols.Lookup | yahoo_symbols/yahoo_symbols.py:53-66 | a successful lookup returns the concatenation, in completion order, of the frames its requests for the generated queries returned, every row tagged with one of those queries |
| YahooSymbols.LookupPlan | yahoo_symbols/yahoo_symbols.py:53-62 | a lookup of length n makes 38^n requests, one per n-symbol word, each with its own params, and no key repeats |
| Download.QuerySpace | yahoo_symbols/download.py:129-133 | 38 + ... + 38^m queries, each of 1 to m symbols |
| Download.QuerySpaceMembers | yahoo_symbols/download.py:129-133 | a query is in it exactly when it is a word of 1 to m alphabet symbols |
| Download.QuerySpaceNoDuplicates | yahoo_symbols/download.py:129-133 | no query appears twice |
| Download.QuerySpaceByLength | yahoo_symbols/download.py:129-133 | shorter queries come before longer ones |
| Download.DownloadQuerySpace | yahoo_symbols/download.py:125-133 | size, members, no duplicates and length order together; no queries at all for m of 0 or less |
| Download.Slice | yahoo_symbols/download.py:137 | Python slicing with both bounds clamped to the length |
| Download.Chunks | yahoo_symbols/download.py:136-137 | `len // 500 + 1` chunks |
| Download.ChunkShapes | yahoo_symbols/download.py:136-137 | each chunk but the last is a full 500-wide slice at its offset, and the last holds the remainder |
| Download.ChunksPartition | yahoo_symbols/download.py:136-137 | concatenating the chunks gives the queries back; each has at most 500, all but the last exactly 500; the last is empty exactly when the length is a multiple of 500 |
| Download.ChunkLoop | yahoo_symbols/download.py:136-137 | the loop produces the same partition, one slice per turn |
| Download.LookupLabel | yahoo_symbols/download.py:82-92 | the first and last queries of a chunk, or IndexError exactly for an empty chunk |
| Download.Labels | yahoo_symbols/download.py:136-144 | one label pair per chunk in order; IndexError exactly when some chunk is empty |
| Download.SumPowMod4 | yahoo_symbols/download.py:129-136 | for m of 1 or more, the query count is 2 modulo 4 |
| Download.ChunksNonEmpty | yahoo_symbols/download.py:129-137 | for m of 1 or more, no chunk of the query space is empty; for m of 0 or less the single chunk is empty |
| Download.DownloadPlan | yahoo_symbols/download.py:125-144 | for m of 1 or more, one label pair per chunk, count // 500 + 1 of them; for m of 0 or less IndexError |
| Download.SaveTarget | yahoo_symbols/download.py:44-61 | parquet, arrow and csv go to a dataset partitioned by `type` with a dated basename; sqlite, sqlite3 and sql go to table `symbols` of `path/symbols.sqlite`; any other format writes nothing |
| Download.DatedBasenamesDiffer | yahoo_symbols/download.py:44-61 | saves on different days, dates of one width, write dataset files under different basenames; the three sqlite spellings give the same target |

## Left out

- Concurrency: the aiohttp session, the connector's per-host limit, the semaphore and `asyncio.as_completed`. Only the completion order they produce is modelled, as a permutation given as input.
- Backoff timing: the exponential delays and `max_time=60` depend on wall-clock time. Only the cap of three attempts is modelled.
- Response decoding: `response.json()`, `text()` and `read()` are I/O. Each attempt's decoded bodies and raw bytes are part of its input.
- Fetches: the `requests.get` calls in `get_user_agents` and `get_webshare_proxy_list`, and loading the pools in async_requests/config.py, are network I/O. The functions take the fetched text or the pools.
- Randomness: `random.choice` is an index chosen by the caller. The model proves that every draw is a pool member and that every member can be drawn.
- `get_free_proxy_list` is HTML scraping through pandas and is not modelled.
- `AsyncRequests.run_requests`, the module-level `requests` and `async_requests` wrappers, and the `*args, **kwargs` that `search` and `lookup` pass on are not modelled. The model takes the settings the wrapper builds: headers given to the call and `use_random_proxy`. It also keeps what the wrapper fixes: no proxy and a return type of "json".
- The `method`, `ssl`, `timeout`, `verbose` and progress-bar arguments change nothing the model observes.
- Merge.Entries: a data frame among the merged results is reported as TypeError. Python iterates a frame's column names and maps each to its column, a pandas Series, which the value model does not represent. Merge.Flatten and Merge.Finalize inherit this, and so does Py.GetItem on a frame.
- YahooSymbols.ParseDocuments: a documents value that is not a list of dicts is modelled as TypeError. pandas would build some frame from other shapes.
- YahooSymbols.ConcatFrames: it states which rows the frame holds, not their column alignment. pandas fills missing columns with NaN, and that is not modelled. The same holds for YahooSymbols.ParseDocuments: `pd.DataFrame(documents)` fills a column that some documents of one page lack with NaN, while the model's row simply has no such column; the two agree only when an absent column is read as NaN.
- YahooSymbols.Lookup: the `isinstance(res, list)` concatenation of lines 64-65 never runs because `search` never returns a list, so it is left out.
- Download: the lookup calls (`yfin.symbols.lookup_search`), `validate`, the pandas merge, `drop_duplicates`, the empty-name filter and the writes themselves call libraries outside this repository. The model stops at the chunk labels and at the storage target `save` chooses.
- The top-level download.py and the Typer `main` command are CLI glue and are not modelled.
- Executor.Execute has no contract of its own. Its behaviour is stated by `Retry` and the lemmas about it.

=== FILE: broadcast.dfy ===
/**
 * The request-descriptor normaliser of async_requests/async_requests.py:
 * `_to_list`, `_extend_list` and the block of `AsyncRequests.requests` that
 * broadcasts url, params, data, json and key to a common length and creates
 * one request task per position of the url list.
 */
module Broadcast {
  import opened Py

  /**
   * `_to_list(x)`: a string or a dict becomes a one-element list, None becomes
   * `[None]`, and any other value (a list, a tuple, an int, bytes) is returned
   * as it is.
   */
  function ToList(x: Value): (r: Value)
    ensures x.VStr? || x.VDict? ==> r == VList([x])
    ensures x.VNone? ==> r == VList([VNone])
    ensures !(x.VStr? || x.VDict? || x.VNone?) ==> r == x
  {
    if x.VStr? || x.VDict? then VList([x])
    else if x.VNone? then VList([VNone])
    else x
  }

  /** Normalising twice is normalising once. */
  lemma ToListIdempotent(x: Value)
    ensures ToList(ToList(x)) == ToList(x)
  {
  }

  /**
   * `_extend_list(x, max_len)`: a one-element list becomes `max_len` copies of
   * its element; a list of any other length is returned unchanged, even when
   * its length differs from `max_len`.
   */
  function ExtendList(xs: seq<Value>, maxLen: nat): (r: seq<Value>)
    ensures |xs| == 1 ==> |r| == maxLen && forall i :: 0 <= i < maxLen ==> r[i] == xs[0]
    ensures |xs| != 1 ==> r == xs
  {
    if |xs| == 1 then seq(maxLen, _ => xs[0]) else xs
  }

  /** The five per-request argument lists once broadcast. */
  datatype Fields = Fields(urls: seq<Value>, params: seq<Value>, data: seq<Value>, json: seq<Value>, keys: seq<Value>)

  /** One request task: the arguments `_request` receives for position `n`. */
  datatype Task = Task(url: Value, params: Value, data: Value, json: Value, key: Value)

  /** The list `len` and indexing see after `_to_list`. */
  function Listed(x: Value): Result<seq<Value>> {
    AsList(ToList(x))
  }

  function Max(a: nat, b: nat): nat {
    if a < b then b else a
  }

  /** `max([len(url), len(params), len(data), len(json), len(key)])`. */
  function MaxLen(a: nat, b: nat, c: nat, d: nat, e: nat): (m: nat)
    ensures m == a || m == b || m == c || m == d || m == e
    ensures a <= m && b <= m && c <= m && d <= m && e <= m
  {
    Max(Max(Max(Max(a, b), c), d), e)
  }

  /** How `_extend_list` relates one argument list to its broadcast form. */
  predicate Broadcasts(raw: seq<Value>, out: seq<Value>, maxLen: nat) {
    && (|raw| == 1 ==> |out| == maxLen && forall i :: 0 <= i < maxLen ==> out[i] == raw[0])
    && (|raw| != 1 ==> out == raw)
  }

  /**
   * Lines 160-172 of `requests`: `_to_list` on every argument, the longest
   * length, and `_extend_list` to it. `len` raises TypeError for an argument
   * that `_to_list` leaves as a scalar (an int, for example).
   */
  function Normalize(url: Value, params: Value, data: Value, json: Value, key: Value): (r: Result<Fields>)
    ensures r.Ok? <==> Listed(url).Ok? && Listed(params).Ok? && Listed(data).Ok? && Listed(json).Ok? && Listed(key).Ok?
    ensures r.Err? ==> r.exc == TypeError
    ensures r.Ok? ==>
              var m := MaxLen(|Listed(url).value|, |Listed(params).value|, |Listed(data).value|,
                              |Listed(json).value|, |Listed(key).value|);
              && Broadcasts(Listed(url).value, r.value.urls, m)
              && Broadcasts(Listed(params).value, r.value.params, m)
              && Broadcasts(Listed(data).value, r.value.data, m)
              && Broadcasts(Listed(json).value, r.value.json, m)
              && Broadcasts(Listed(key).value, r.value.keys, m)
  {
    var u :- Listed(url);
    var p :- Listed(params);
    var d :- Listed(data);
    var j :- Listed(json);
    var k :- Listed(key);
    var m := MaxLen(|u|, |p|, |d|, |j|, |k|);
    Ok(Fields(ExtendList(u, m), ExtendList(p, m), ExtendList(d, m), ExtendList(j, m), ExtendList(k, m)))
  }

  /**
   * Lines 181-197: one task per position of the url list. The other lists are
   * indexed at the same position, so one that is shorter than the url list
   * raises IndexError; longer ones are silently cut.
   */
  function Tasks(f: Fields): (r: Result<seq<Task>>)
    ensures r.Ok? <==> |f.params| >= |f.urls| && |f.data| >= |f.urls| && |f.json| >= |f.urls| && |f.keys| >= |f.urls|
    ensures r.Err? ==> r.exc == IndexError
    ensures r.Ok? ==> |r.value| == |f.urls|
    ensures r.Ok? ==> forall n :: 0 <= n < |f.urls| ==>
                        r.value[n] == Task(f.urls[n], f.params[n], f.data[n], f.json[n], f.keys[n])
  {
    var n := |f.urls|;
    if |f.params| < n || |f.data| < n || |f.json| < n || |f.keys| < n then Err(IndexError)
    else Ok(seq(n, i requires 0 <= i < n => Task(f.urls[i], f.params[i], f.data[i], f.json[i], f.keys[i])))
  }

  /**
   * The tasks `requests` creates for its arguments, or the exception raised
   * while creating them: TypeError exactly when some argument has no length,
   * otherwise IndexError or one task per position of the broadcast url list,
   * every field of which is an element of its own argument's list.
   */
  function Plan(url: Value, params: Value, data: Value, json: Value, key: Value): (r: Result<seq<Task>>)
    ensures r.Err? ==> r.exc == TypeError || r.exc == IndexError
    ensures r == Err(TypeError) <==>
              !(Listed(url).Ok? && Listed(params).Ok? && Listed(data).Ok? && Listed(json).Ok? && Listed(key).Ok?)
    ensures r.Ok? ==>
              |r.value| == if |Listed(url).value| != 1 then |Listed(url).value|
                           else MaxLen(|Listed(url).value|, |Listed(params).value|, |Listed(data).value|,
                                       |Listed(json).value|, |Listed(key).value|)
    ensures r.Ok? ==> forall n :: 0 <= n < |r.value| ==> TaskFrom(r.value[n], url, params, data, json, key)
  {
    var f :- Normalize(url, params, data, json, key);
    var r := Tasks(f);
    if r.Ok? then
      BroadcastMembers(Listed(url).value, f.urls);
      BroadcastMembers(Listed(params).value, f.params);
      BroadcastMembers(Listed(data).value, f.data);
      BroadcastMembers(Listed(json).value, f.json);
      BroadcastMembers(Listed(key).value, f.keys);
      r
    else r
  }

  /** Every field of the task is an element of its argument's list. */
  predicate TaskFrom(t: Task, url: Value, params: Value, data: Value, json: Value, key: Value)
    requires Listed(url).Ok? && Listed(params).Ok? && Listed(data).Ok? && Listed(json).Ok? && Listed(key).Ok?
  {
    && t.url in Listed(url).value && t.params in Listed(params).value && t.data in Listed(data).value
    && t.json in Listed(json).value && t.key in Listed(key).value
  }

  /** A broadcast list holds only elements of the list it was broadcast from. */
  lemma BroadcastMembers(raw: seq<Value>, out: seq<Value>)
    requires exists m: nat :: Broadcasts(raw, out, m)
    ensures forall i :: 0 <= i < |out| ==> out[i] in raw
  {
    var m: nat :| Broadcasts(raw, out, m);
    if |raw| == 1 {
      assert forall i :: 0 <= i < |out| ==> out[i] == raw[0];
    }
  }

  /** Every argument is a single value or a list of the common length `n >= 1`, and at least one is such a list. */
  predicate Aligned(url: Value, params: Value, data: Value, json: Value, key: Value, n: nat) {
    && n >= 1
    && Listed(url).Ok? && Listed(params).Ok? && Listed(data).Ok? && Listed(json).Ok? && Listed(key).Ok?
    && (|Listed(url).value| == 1 || |Listed(url).value| == n)
    && (|Listed(params).value| == 1 || |Listed(params).value| == n)
    && (|Listed(data).value| == 1 || |Listed(data).value| == n)
    && (|Listed(json).value| == 1 || |Listed(json).value| == n)
    && (|Listed(key).value| == 1 || |Listed(key).value| == n)
    && (|Listed(url).value| == n || |Listed(params).value| == n || |Listed(data).value| == n
        || |Listed(json).value| == n || |Listed(key).value| == n)
  }

  /**
   * Broadcasting: when every argument is a single value or a list of the same
   * length `n`, exactly `n` tasks are created; position `i` takes the `i`-th
   * element of every list argument and the single value of every other one.
   */
  lemma AlignedBroadcast(url: Value, params: Value, data: Value, json: Value, key: Value, n: nat)
    requires Aligned(url, params, data, json, key, n)
    ensures Plan(url, params, data, json, key).Ok?
    ensures var tasks := Plan(url, params, data, json, key).value;
            && |tasks| == n
            && forall i :: 0 <= i < n ==>
                 tasks[i] == Task(Pick(Listed(url).value, i), Pick(Listed(params).value, i), Pick(Listed(data).value, i),
                                  Pick(Listed(json).value, i), Pick(Listed(key).value, i))
  {
    var u, p, d, j, k := Listed(url).value, Listed(params).value, Listed(data).value, Listed(json).value, Listed(key).value;
    NormalizeAligned(url, params, data, json, key, n);
    var f := Normalize(url, params, data, json, key).value;
    TasksOfBroadcast(u, p, d, j, k, f, n);
    PlanOfFields(url, params, data, json, key, f);
  }

  /** Aligned arguments are broadcast to the common length `n`. */
  lemma NormalizeAligned(url: Value, params: Value, data: Value, json: Value, key: Value, n: nat)
    requires Aligned(url, params, data, json, key, n)
    ensures Normalize(url, params, data, json, key).Ok?
    ensures var f := Normalize(url, params, data, json, key).value;
            && Broadcasts(Listed(url).value, f.urls, n) && Broadcasts(Listed(params).value, f.params, n)
            && Broadcasts(Listed(data).value, f.data, n) && Broadcasts(Listed(json).value, f.json, n)
            && Broadcasts(Listed(key).value, f.keys, n)
  {
    var u, p, d, j, k := Listed(url).value, Listed(params).value, Listed(data).value, Listed(json).value, Listed(key).value;
    var r := Normalize(url, params, data, json, key);
    assert r.Ok?;
    MaxLenAligned(|u|, |p|, |d|, |j|, |k|, n);
    var m := MaxLen(|u|, |p|, |d|, |j|, |k|);
    assert m == n;
    var f := r.value;
    assert Broadcasts(u, f.urls, m) && Broadcasts(p, f.params, m) && Broadcasts(d, f.data, m);
    assert Broadcasts(j, f.json, m) && Broadcasts(k, f.keys, m);
  }

  /** Once the arguments normalise to `f`, the plan is the tasks of `f`. */
  lemma PlanOfFields(url: Value, params: Value, data: Value, json: Value, key: Value, f: Fields)
    requires Normalize(url, params, data, json, key) == Ok(f)
    ensures Plan(url, params, data, json, key) == Tasks(f)
  {
  }

  /** Lengths that are all 1 or `n >= 1`, with `n` among them, have `n` as their maximum. */
  lemma MaxLenAligned(a: nat, b: nat, c: nat, d: nat, e: nat, n: nat)
    requires n >= 1
    requires (a == 1 || a == n) && (b == 1 || b == n) && (c == 1 || c == n) && (d == 1 || d == n) && (e == 1 || e == n)
    requires a == n || b == n || c == n || d == n || e == n
    ensures MaxLen(a, b, c, d, e) == n
  {
  }

  /** Broadcast fields whose lists had length 1 or `n` make `n` tasks, position by position. */
  lemma TasksOfBroadcast(u: seq<Value>, p: seq<Value>, d: seq<Value>, j: seq<Value>, k: seq<Value>, f: Fields, n: nat)
    requires (|u| == 1 || |u| == n) && (|p| == 1 || |p| == n) && (|d| == 1 || |d| == n)
    requires (|j| == 1 || |j| == n) && (|k| == 1 || |k| == n)
    requires Broadcasts(u, f.urls, n) && Broadcasts(p, f.params, n) && Broadcasts(d, f.data, n)
    requires Broadcasts(j, f.json, n) && Broadcasts(k, f.keys, n)
    ensures Tasks(f).Ok? && |Tasks(f).value| == n
    ensures forall i :: 0 <= i < n ==>
              Tasks(f).value[i] == Task(Pick(u, i), Pick(p, i), Pick(d, i), Pick(j, i), Pick(k, i))
  {
    BroadcastField(u, f.urls, n);
    BroadcastField(p, f.params, n);
    BroadcastField(d, f.data, n);
    BroadcastField(j, f.json, n);
    BroadcastField(k, f.keys, n);
  }

  /** The element position `i` of a broadcast list takes from `xs`: its only one, or its `i`-th. */
  function Pick(xs: seq<Value>, i: nat): Value
    requires |xs| == 1 || i < |xs|
  {
    xs[if |xs| == 1 then 0 else i]
  }

  /** A list of length 1 or `n`, broadcast to `n`, holds its own element or its only one at every position. */
  lemma BroadcastField(raw: seq<Value>, out: seq<Value>, n: nat)
    requires |raw| == 1 || |raw| == n
    requires Broadcasts(raw, out, n)
    ensures |out| == n
    ensures forall i :: 0 <= i < n ==> out[i] == Pick(raw, i)
  {
  }

  /**
   * A single url string against a list of `n` params: `n` requests, all to
   * that url, with the absent data, json and key broadcast as None.
   */
  lemma ScalarUrlWithParamList(u: string, ps: seq<Value>)
    requires |ps| >= 1
    ensures Plan(VStr(u), VList(ps), VNone, VNone, VNone).Ok?
    ensures var tasks := Plan(VStr(u), VList(ps), VNone, VNone, VNone).value;
            && |tasks| == |ps|
            && forall i :: 0 <= i < |ps| ==> tasks[i] == Task(VStr(u), ps[i], VNone, VNone, VNone)
  {
    AlignedBroadcast(VStr(u), VList(ps), VNone, VNone, VNone, |ps|);
  }

  /**
   * Mismatched lengths are not rejected: a url list longer than another list
   * argument fails with IndexError, one shorter cuts the longer list.
   */
  lemma MismatchedLengths(us: seq<Value>, ps: seq<Value>)
    requires |us| >= 2 && |ps| >= 2 && |us| != |ps|
    ensures |us| > |ps| ==> Plan(VList(us), VList(ps), VNone, VNone, VNone) == Err(IndexError)
    ensures |us| < |ps| ==> Plan(VList(us), VList(ps), VNone, VNone, VNone).Ok?
    ensures |us| < |ps| ==> |Plan(VList(us), VList(ps), VNone, VNone, VNone).value| == |us|
  {
  }

  /** A scalar argument that `_to_list` does not wrap (an int key) makes `len` fail. */
  lemma IntKeyIsTypeError(u: Value, k: int)
    ensures Plan(u, VNone, VNone, VNone, VInt(k)) == Err(TypeError)
  {
  }
}

=== FILE: combinations.dfy ===
/**
 * The query alphabet and `itertools.product(*[samples] * n)` joined back to
 * strings, as `YahooSymbols.lookup` (yahoo_symbols/yahoo_symbols.py) and
 * `download` (yahoo_symbols/download.py) build their query lists.
 */
module Combinations {

  /** `string.ascii_lowercase`: the letters `a` to `z`. */
  const Letters: string := "abcdefghijklmnopqrstuvwxyz"

  /** `string.digits`: the digits `0` to `9`. */
  const Digits: string := "0123456789"

  /** `letters + numbers + [".", "-"]`: the 38 query symbols, in this order. */
  const Alphabet: string := Letters + Digits + ".-"

  function Pow(b: nat, n: nat): nat {
    if n == 0 then 1 else b * Pow(b, n - 1)
  }

  /** No symbol occurs twice. */
  predicate DistinctChars(alpha: string) {
    forall i, j :: 0 <= i < j < |alpha| ==> alpha[i] != alpha[j]
  }

  /** The code point of the `i`-th symbol of the alphabet. */
  function Code(i: nat): int {
    if i < 26 then 'a' as int + i else if i < 36 then '0' as int + (i - 26) else if i == 36 then '.' as int else '-' as int
  }

  lemma AlphabetShape()
    ensures |Alphabet| == 38
    ensures forall i :: 0 <= i < 38 ==> Alphabet[i] as int == Code(i)
    ensures DistinctChars(Alphabet)
  {
    forall i | 0 <= i < 38
      ensures Alphabet[i] as int == Code(i)
    {
      if i < 26 {
        assert Alphabet[i] == Letters[i];
      } else if i < 36 {
        assert Alphabet[i] == Digits[i - 26];
      }
    }
  }

  /** Position of `c` in `alpha`; `|alpha|` when it is absent. */
  function Rank(alpha: string, c: char): (k: nat)
    ensures k <= |alpha|
    ensures k < |alpha| ==> alpha[k] == c
    ensures forall j :: 0 <= j < k ==> alpha[j] != c
  {
    if |alpha| == 0 then 0
    else if alpha[0] == c then 0
    else 1 + Rank(alpha[1..], c)
  }

  lemma {:induction false} RankOfMember(alpha: string, k: nat)
    requires DistinctChars(alpha) && k < |alpha|
    ensures Rank(alpha, alpha[k]) == k
  {
  }

  /**
   * Lexicographic order of equal-position symbols by their place in the
   * alphabet: the first position where `a` and `b` differ holds the earlier
   * symbol in `a`.
   */
  predicate LexLess(alpha: string, a: string, b: string)
    decreases |a|
  {
    && |a| > 0 && |b| > 0
    && if a[0] == b[0] then LexLess(alpha, a[1..], b[1..])
       else Rank(alpha, a[0]) < Rank(alpha, b[0])
  }

  lemma {:induction false} LexLessIrreflexive(alpha: string, a: string)
    ensures !LexLess(alpha, a, a)
    decreases |a|
  {
    if |a| > 0 {
      LexLessIrreflexive(alpha, a[1..]);
    }
  }

  /** Strictly increasing in the alphabet's lexicographic order. */
  predicate Sorted(alpha: string, xs: seq<string>) {
    forall i, j :: 0 <= i < j < |xs| ==> LexLess(alpha, xs[i], xs[j])
  }

  predicate NoDuplicates(xs: seq<string>) {
    forall i, j :: 0 <= i < j < |xs| ==> xs[i] != xs[j]
  }

  lemma SortedHasNoDuplicates(alpha: string, xs: seq<string>)
    requires Sorted(alpha, xs)
    ensures NoDuplicates(xs)
  {
    forall i, j | 0 <= i < j < |xs|
      ensures xs[i] != xs[j]
    {
      if xs[i] == xs[j] {
        LexLessIrreflexive(alpha, xs[i]);
        assert false;
      }
    }
  }

  /** Every string over `alpha` with exactly `n` symbols. */
  ghost predicate Word(alpha: string, s: string, n: nat) {
    |s| == n && forall i :: 0 <= i < |s| ==> s[i] in alpha
  }

  /** The symbol `c` put in front of every string of `ys`. */
  function Prepend(c: char, ys: seq<string>): (r: seq<string>)
    ensures |r| == |ys|
    ensures forall i :: 0 <= i < |ys| ==> r[i] == [c] + ys[i]
  {
    seq(|ys|, i requires 0 <= i < |ys| => [c] + ys[i])
  }

  /** `[alpha[k] + y for k in range(from, len(alpha)) for y in ys]`. */
  function BlocksFrom(alpha: string, from: nat, ys: seq<string>): (r: seq<string>)
    requires from <= |alpha|
    decreases |alpha| - from
  {
    if from == |alpha| then [] else Prepend(alpha[from], ys) + BlocksFrom(alpha, from + 1, ys)
  }

  /** Each block string is one symbol longer than the strings of `ys`. */
  lemma {:induction false} BlocksFromLengths(alpha: string, from: nat, ys: seq<string>, len: nat)
    requires from <= |alpha|
    requires forall j :: 0 <= j < |ys| ==> |ys[j]| == len
    ensures forall s :: s in BlocksFrom(alpha, from, ys) ==> |s| == len + 1
    decreases |alpha| - from
  {
    if from < |alpha| {
      BlocksFromLengths(alpha, from + 1, ys, len);
      var head := Prepend(alpha[from], ys);
      forall s | s in head
        ensures |s| == len + 1
      {
        var i :| 0 <= i < |head| && head[i] == s;
        assert s == [alpha[from]] + ys[i];
      }
    }
  }

  /**
   * `["".join(q) for q in product(*[alpha] * n)]`: all strings of `n` symbols,
   * the last symbol varying fastest. For `n <= 0` the product has one empty
   * tuple, so the list is `[""]`.
   */
  function Product(alpha: string, n: int): (r: seq<string>)
    ensures forall i :: 0 <= i < |r| ==> |r[i]| == if n <= 0 then 0 else n
    decreases if n <= 0 then 0 else n
  {
    if n <= 0 then [""]
    else
      var ys := Product(alpha, n - 1);
      BlocksFromLengths(alpha, 0, ys, n - 1);
      var r := BlocksFrom(alpha, 0, ys);
      assert forall i :: 0 <= i < |r| ==> r[i] in r;
      r
  }

  lemma {:induction false} BlocksFromLength(alpha: string, from: nat, ys: seq<string>)
    requires from <= |alpha|
    ensures |BlocksFrom(alpha, from, ys)| == (|alpha| - from) * |ys|
    decreases |alpha| - from
  {
    if from < |alpha| {
      BlocksFromLength(alpha, from + 1, ys);
      assert (|alpha| - from) * |ys| == |ys| + (|alpha| - (from + 1)) * |ys|;
    }
  }

  /** The product of `n` copies of the alphabet has `|alpha|^n` members. */
  lemma {:induction false} ProductLength(alpha: string, n: nat)
    ensures |Product(alpha, n)| == Pow(|alpha|, n)
  {
    if n > 0 {
      ProductLength(alpha, n - 1);
      BlocksFromLength(alpha, 0, Product(alpha, n - 1));
    }
  }

  lemma {:induction false} BlocksFromMembers(alpha: string, from: nat, ys: seq<string>, s: string)
    requires from <= |alpha|
    ensures s in BlocksFrom(alpha, from, ys) <==>
              |s| > 0 && s[1..] in ys && exists k :: from <= k < |alpha| && alpha[k] == s[0]
    decreases |alpha| - from
  {
    if from < |alpha| {
      BlocksFromMembers(alpha, from + 1, ys, s);
      if |s| > 0 && s[1..] in ys && s[0] == alpha[from] {
        var i :| 0 <= i < |ys| && ys[i] == s[1..];
        assert Prepend(alpha[from], ys)[i] == s;
      }
    }
  }

  /** Exactly the strings of `n` alphabet symbols are in the product. */
  lemma {:induction false} ProductMembers(alpha: string, n: nat, s: string)
    ensures s in Product(alpha, n) <==> Word(alpha, s, n)
  {
    if n == 0 {
      assert Product(alpha, 0) == [""];
    } else {
      BlocksFromMembers(alpha, 0, Product(alpha, n - 1), s);
      if |s| > 0 {
        ProductMembers(alpha, n - 1, s[1..]);
        if Word(alpha, s, n) {
          var k := Rank(alpha, s[0]);
          assert alpha[k] == s[0];
          assert Word(alpha, s[1..], n - 1);
        }
        if s[1..] in Product(alpha, n - 1) && s[0] in alpha {
          assert s == [s[0]] + s[1..];
          forall i | 0 <= i < |s|
            ensures s[i] in alpha
          {
            if i > 0 {
              assert s[i] == s[1..][i - 1];
            }
          }
        }
      }
    }
  }

  lemma {:induction false} SortedPrepend(alpha: string, c: char, ys: seq<string>)
    requires Sorted(alpha, ys)
    ensures Sorted(alpha, Prepend(c, ys))
  {
    var r := Prepend(c, ys);
    forall i, j | 0 <= i < j < |r|
      ensures LexLess(alpha, r[i], r[j])
    {
      assert r[i][1..] == ys[i] && r[j][1..] == ys[j];
    }
  }

  lemma SortedAppend(alpha: string, a: seq<string>, b: seq<string>)
    requires Sorted(alpha, a) && Sorted(alpha, b)
    requires forall i, j :: 0 <= i < |a| && 0 <= j < |b| ==> LexLess(alpha, a[i], b[j])
    ensures Sorted(alpha, a + b)
  {
    var r := a + b;
    forall i, j | 0 <= i < j < |r|
      ensures LexLess(alpha, r[i], r[j])
    {
      if j < |a| {
        assert r[i] == a[i] && r[j] == a[j];
      } else if i >= |a| {
        assert r[i] == b[i - |a|] && r[j] == b[j - |a|];
      } else {
        assert r[i] == a[i] && r[j] == b[j - |a|];
      }
    }
  }

  lemma {:induction false} BlocksFromSorted(alpha: string, from: nat, ys: seq<string>)
    requires DistinctChars(alpha) && from <= |alpha| && Sorted(alpha, ys)
    ensures Sorted(alpha, BlocksFrom(alpha, from, ys))
    decreases |alpha| - from
  {
    if from < |alpha| {
      var head := Prepend(alpha[from], ys);
      var tail := BlocksFrom(alpha, from + 1, ys);
      SortedPrepend(alpha, alpha[from], ys);
      BlocksFromSorted(alpha, from + 1, ys);
      forall i, j | 0 <= i < |head| && 0 <= j < |tail|
        ensures LexLess(alpha, head[i], tail[j])
      {
        BlocksFromMembers(alpha, from + 1, ys, tail[j]);
        assert tail[j] in tail;
        var k :| from + 1 <= k < |alpha| && alpha[k] == tail[j][0];
        RankOfMember(alpha, from);
        RankOfMember(alpha, k);
      }
      SortedAppend(alpha, head, tail);
    }
  }

  /** Over an alphabet without repeated symbols, the product is strictly sorted by symbol position. */
  lemma {:induction false} ProductSorted(alpha: string, n: nat)
    requires DistinctChars(alpha)
    ensures Sorted(alpha, Product(alpha, n))
  {
    if n > 0 {
      ProductSorted(alpha, n - 1);
      BlocksFromSorted(alpha, 0, Product(alpha, n - 1));
    }
  }

  /**
   * The lookup query list for `query_length = n`: `38^n` strings of `n`
   * symbols from the alphabet, each one exactly once, in lexicographic order
   * of alphabet position.
   */
  lemma LookupQuerySpace(n: nat)
    ensures |Product(Alphabet, n)| == Pow(38, n)
    ensures forall s :: s in Product(Alphabet, n) <==> Word(Alphabet, s, n)
    ensures Sorted(Alphabet, Product(Alphabet, n))
    ensures NoDuplicates(Product(Alphabet, n))
  {
    AlphabetShape();
    ProductLength(Alphabet, n);
    forall s
      ensures s in Product(Alphabet, n) <==> Word(Alphabet, s, n)
    {
      ProductMembers(Alphabet, n, s);
    }
    ProductSorted(Alphabet, n);
    SortedHasNoDuplicates(Alphabet, Product(Alphabet, n));
  }

  /** A non-positive length gives the single empty query. */
  lemma NonPositiveLengthIsEmptyQuery(n: int)
    requires n <= 0
    ensures Product(Alphabet, n) == [""]
  {
  }
}

=== FILE: download.dfy ===
/**
 * The deterministic part of `download` and `save` in
 * yahoo_symbols/download.py: the query space over lengths 1..max, its
 * 500-wide chunks, the first/last labels `_get_lookup` reads from each
 * chunk, and the storage target chosen from the format string. The lookup
 * calls, validation, pandas merging and the writes themselves are foreign.
 */
module Download {
  import opened Py
  import opened Combinations

  /** The slice width of the download loop. */
  const ChunkSize: nat := 500

  /**
   * `["".join(q) for ql in range(1, m + 1) for q in product(*[samples] * ql)]`:
   * all words of length 1, then of length 2, up to length `m`; `38 + ... +
   * 38^m` of them, each of 1 to `m` symbols.
   */
  function QuerySpace(m: int): (r: seq<string>)
    ensures |r| == SumPow(m)
    ensures forall i :: 0 <= i < |r| ==> 1 <= |r[i]| <= m
    decreases if m <= 0 then 0 else m
  {
    if m <= 0 then []
    else
      var a, b := QuerySpace(m - 1), Product(Alphabet, m);
      AlphabetShape();
      ProductLength(Alphabet, m);
      assert forall i :: |a| <= i < |a| + |b| ==> (a + b)[i] == b[i - |a|];
      a + b
  }

  /** `38 + 38^2 + ... + 38^m`. */
  function SumPow(m: int): nat
    decreases if m <= 0 then 0 else m
  {
    if m <= 0 then 0 else SumPow(m - 1) + Pow(38, m)
  }

  lemma {:induction false} QuerySpaceMembers(m: int, s: string)
    ensures s in QuerySpace(m) <==> 1 <= |s| <= m && Word(Alphabet, s, |s|)
    decreases if m <= 0 then 0 else m
  {
    if m > 0 {
      QuerySpaceMembers(m - 1, s);
      ProductMembers(Alphabet, m, s);
    }
  }

  lemma {:induction false} QuerySpaceNoDuplicates(m: int)
    ensures NoDuplicates(QuerySpace(m))
    decreases if m <= 0 then 0 else m
  {
    if m > 0 {
      var a := QuerySpace(m - 1);
      var b := Product(Alphabet, m);
      QuerySpaceNoDuplicates(m - 1);
      assert NoDuplicates(b) by {
        LookupQuerySpace(m);
      }
      assert forall i, j :: 0 <= i < |a| && 0 <= j < |b| ==> |a[i]| < |b[j]|;
      NoDuplicatesAppend(a, b);
    }
  }

  /** Two lists without repeats whose entries differ pairwise concatenate into one without repeats. */
  lemma NoDuplicatesAppend(a: seq<string>, b: seq<string>)
    requires NoDuplicates(a) && NoDuplicates(b)
    requires forall i, j :: 0 <= i < |a| && 0 <= j < |b| ==> a[i] != b[j]
    ensures NoDuplicates(a + b)
  {
    forall i, j | 0 <= i < j < |a + b|
      ensures (a + b)[i] != (a + b)[j]
    {
      if j < |a| {
        assert (a + b)[i] == a[i] && (a + b)[j] == a[j];
      } else if i >= |a| {
        assert (a + b)[i] == b[i - |a|] && (a + b)[j] == b[j - |a|];
      } else {
        assert (a + b)[i] == a[i] && (a + b)[j] == b[j - |a|];
      }
    }
  }

  /** The lengths come in increasing order: a shorter query never follows a longer one. */
  lemma {:induction false} QuerySpaceByLength(m: int)
    ensures forall i, j :: 0 <= i < j < |QuerySpace(m)| ==> |QuerySpace(m)[i]| <= |QuerySpace(m)[j]|
    decreases if m <= 0 then 0 else m
  {
    if m > 0 {
      var a := QuerySpace(m - 1);
      var b := Product(Alphabet, m);
      QuerySpaceByLength(m - 1);
      forall i, j | 0 <= i < j < |a + b|
        ensures |(a + b)[i]| <= |(a + b)[j]|
      {
        if j >= |a| {
          assert (a + b)[j] == b[j - |a|];
          if i < |a| {
            assert (a + b)[i] == a[i];
          } else {
            assert (a + b)[i] == b[i - |a|];
          }
        } else {
          assert (a + b)[i] == a[i] && (a + b)[j] == a[j];
        }
      }
    }
  }

  /**
   * The query space of `download(max_combination_length=m)`: `38 + ... + 38^m`
   * queries, exactly the words of 1 to `m` symbols, none twice, shorter ones
   * first; no queries at all for `m <= 0`.
   */
  lemma DownloadQuerySpace(m: int)
    ensures |QuerySpace(m)| == SumPow(m)
    ensures forall s :: s in QuerySpace(m) <==> 1 <= |s| <= m && Word(Alphabet, s, |s|)
    ensures NoDuplicates(QuerySpace(m))
    ensures forall i, j :: 0 <= i < j < |QuerySpace(m)| ==> |QuerySpace(m)[i]| <= |QuerySpace(m)[j]|
    ensures m <= 0 ==> QuerySpace(m) == []
  {
    QuerySpaceByLength(m);
    forall s
      ensures s in QuerySpace(m) <==> 1 <= |s| <= m && Word(Alphabet, s, |s|)
    {
      QuerySpaceMembers(m, s);
    }
    QuerySpaceNoDuplicates(m);
  }

  /** `xs[lo:hi]` for `0 <= lo <= hi`: Python clamps both bounds to the length. */
  function Slice<T>(xs: seq<T>, lo: nat, hi: nat): (r: seq<T>)
    requires lo <= hi
    ensures hi <= |xs| ==> r == xs[lo..hi]
    ensures lo <= |xs| <= hi ==> r == xs[lo..]
    ensures |xs| < lo ==> r == []
  {
    if |xs| <= lo then [] else if |xs| <= hi then xs[lo..] else xs[lo..hi]
  }

  /** `[queries[n * 500 : (n + 1) * 500] for n in range(len(queries) // 500 + 1)]`. */
  function Chunks<T>(xs: seq<T>): (r: seq<seq<T>>)
    ensures |r| == |xs| / ChunkSize + 1
  {
    seq(|xs| / ChunkSize + 1, n requires 0 <= n => Slice(xs, n * ChunkSize, (n + 1) * ChunkSize))
  }

  function Concat<T>(xss: seq<seq<T>>): seq<T> {
    if |xss| == 0 then [] else Concat(xss[..|xss| - 1]) + xss[|xss| - 1]
  }

  /** Every chunk before the last is a full slice; the last holds the remainder. */
  lemma ChunkShapes<T>(xs: seq<T>)
    ensures var cs := Chunks(xs);
            && (forall n :: 0 <= n < |cs| - 1 ==> cs[n] == xs[n * ChunkSize..(n + 1) * ChunkSize])
            && cs[|cs| - 1] == xs[(|cs| - 1) * ChunkSize..]
            && |cs[|cs| - 1]| == |xs| % ChunkSize
  {
  }

  lemma {:induction false} ConcatChunkPrefix<T>(xs: seq<T>, k: nat)
    requires k <= |xs| / ChunkSize
    ensures Concat(Chunks(xs)[..k]) == xs[..k * ChunkSize]
  {
    var cs := Chunks(xs);
    if k > 0 {
      ConcatChunkPrefix(xs, k - 1);
      assert cs[..k][..k - 1] == cs[..k - 1];
      ChunkShapes(xs);
      assert cs[k - 1] == xs[(k - 1) * ChunkSize..k * ChunkSize];
      assert xs[..k * ChunkSize] == xs[..(k - 1) * ChunkSize] + xs[(k - 1) * ChunkSize..k * ChunkSize];
    }
  }

  /**
   * The chunks of the download loop: concatenated in order they give the
   * query list back; each holds at most 500 queries and all but the last
   * exactly 500; a length that is a multiple of 500 leaves the last one empty.
   */
  lemma {:induction false} ChunksPartition<T>(xs: seq<T>)
    ensures Concat(Chunks(xs)) == xs
    ensures forall n :: 0 <= n < |Chunks(xs)| ==> |Chunks(xs)[n]| <= ChunkSize
    ensures forall n :: 0 <= n < |Chunks(xs)| - 1 ==> |Chunks(xs)[n]| == ChunkSize
    ensures |Chunks(xs)[|Chunks(xs)| - 1]| == 0 <==> |xs| % ChunkSize == 0
  {
    var cs := Chunks(xs);
    var k := |cs| - 1;
    ChunkShapes(xs);
    ConcatChunkPrefix(xs, k);
    assert cs[..k] == cs[..|cs| - 1];
    assert xs == xs[..k * ChunkSize] + xs[k * ChunkSize..];
  }

  /** The chunks built by the loop itself, one slice per turn. */
  method ChunkLoop<T>(xs: seq<T>) returns (cs: seq<seq<T>>)
    ensures |cs| == |xs| / ChunkSize + 1
    ensures Concat(cs) == xs
    ensures forall n :: 0 <= n < |cs| ==> |cs[n]| <= ChunkSize
    ensures forall n :: 0 <= n < |cs| - 1 ==> |cs[n]| == ChunkSize
  {
    var count := |xs| / ChunkSize + 1;
    cs := [];
    var n := 0;
    while n < count
      invariant 0 <= n <= count && |cs| == n
      invariant Concat(cs) == xs[..if n * ChunkSize <= |xs| then n * ChunkSize else |xs|]
      invariant forall i :: 0 <= i < n ==> |cs[i]| <= ChunkSize
      invariant forall i :: 0 <= i < n && i < count - 1 ==> |cs[i]| == ChunkSize
    {
      var chunk := Slice(xs, n * ChunkSize, (n + 1) * ChunkSize);
      var before := if n * ChunkSize <= |xs| then n * ChunkSize else |xs|;
      var after := if (n + 1) * ChunkSize <= |xs| then (n + 1) * ChunkSize else |xs|;
      assert chunk == xs[before..after];
      assert (cs + [chunk])[..n] == cs;
      assert xs[..after] == xs[..before] + xs[before..after];
      cs := cs + [chunk];
      n := n + 1;
    }
  }

  /**
   * `lookup_query[0]` and `lookup_query[-1]` in `_get_lookup`'s log lines: the
   * first and last query of a chunk, or IndexError for an empty chunk.
   */
  function LookupLabel(chunk: seq<string>): (r: Result<(string, string)>)
    ensures r.Ok? <==> |chunk| > 0
    ensures r.Err? ==> r.exc == IndexError
    ensures r.Ok? ==> r.value.0 in chunk && r.value.1 in chunk
  {
    if |chunk| == 0 then Err(IndexError) else Ok((chunk[0], chunk[|chunk| - 1]))
  }

  /** The labels of the chunks in loop order; the first empty chunk aborts the download. */
  function Labels(chunks: seq<seq<string>>): (r: Result<seq<(string, string)>>)
    ensures r.Ok? <==> forall n :: 0 <= n < |chunks| ==> |chunks[n]| > 0
    ensures r.Ok? ==> |r.value| == |chunks|
    ensures r.Ok? ==> forall n :: 0 <= n < |chunks| ==>
                        r.value[n] == (chunks[n][0], chunks[n][|chunks[n]| - 1])
    ensures r.Err? ==> r.exc == IndexError
  {
    if |chunks| == 0 then Ok([])
    else
      var first :- LookupLabel(chunks[0]);
      var rest :- Labels(chunks[1..]);
      assert forall n :: 1 <= n < |chunks| ==> chunks[1..][n - 1] == chunks[n];
      Ok([first] + rest)
  }

  /**
   * The chunk requests `download(max_combination_length=m)` makes, or the
   * IndexError it stops with. For every `m >= 1` the query count `38 + ... +
   * 38^m` is 2 modulo 4, never a multiple of 500, so every chunk is non-empty
   * and the download runs one request batch per chunk. For `m <= 0` the only
   * chunk is empty and `_get_lookup` fails with IndexError.
   */
  function DownloadPlan(m: int): (r: Result<seq<(string, string)>>)
    ensures m >= 1 ==> r.Ok? && |r.value| == SumPow(m) / ChunkSize + 1
    ensures m <= 0 ==> r == Err(IndexError)
  {
    ChunksNonEmpty(m);
    Labels(Chunks(QuerySpace(m)))
  }

  lemma {:induction false} PowMod4(l: nat)
    requires l >= 2
    ensures Pow(38, l) % 4 == 0
  {
    if l > 2 {
      PowMod4(l - 1);
      assert Pow(38, l) == 38 * Pow(38, l - 1);
    } else {
      assert Pow(38, 2) == 1444;
    }
  }

  lemma {:induction false} SumPowMod4(m: int)
    requires m >= 1
    ensures SumPow(m) % 4 == 2
    decreases m
  {
    if m == 1 {
      assert SumPow(1) == 38;
    } else {
      SumPowMod4(m - 1);
      PowMod4(m);
    }
  }

  /** The chunks of the query space are all non-empty exactly when there is a query. */
  lemma ChunksNonEmpty(m: int)
    ensures m >= 1 ==> forall n :: 0 <= n < |Chunks(QuerySpace(m))| ==> |Chunks(QuerySpace(m))[n]| > 0
    ensures m <= 0 ==> |Chunks(QuerySpace(m))[0]| == 0
  {
    var qs := QuerySpace(m);
    if m >= 1 {
      SumPowMod4(m);
      assert |qs| % ChunkSize != 0;
      ChunksOfNonMultiple(qs);
    } else {
      assert qs == [];
    }
  }

  /** When the length is not a multiple of 500, no chunk is empty. */
  lemma ChunksOfNonMultiple<T>(xs: seq<T>)
    requires |xs| % ChunkSize != 0
    ensures forall n :: 0 <= n < |Chunks(xs)| ==> |Chunks(xs)[n]| > 0
  {
    ChunksPartition(xs);
  }

  /** Where `save` writes the symbols. */
  datatype Storage =
    | Dataset(path: string, format: string, partitioning: seq<string>, basename: string)
    | Database(file: string, table: string)
    | NoWrite

  predicate IsDatasetFormat(fmt: string) {
    fmt == "parquet" || fmt == "arrow" || fmt == "csv"
  }

  predicate IsDatabaseFormat(fmt: string) {
    fmt == "sqlite" || fmt == "sqlite3" || fmt == "sql"
  }

  /**
   * `save(results, path, as_)` dispatches on the format: a pyarrow dataset
   * partitioned by `type` for parquet, arrow and csv, the table `symbols` of
   * `path + "/symbols.sqlite"` for the sqlite spellings, nothing otherwise.
   * `today` is the date the basename template is stamped with.
   */
  function SaveTarget(path: string, fmt: string, today: string): (r: Storage)
    ensures r.Dataset? <==> IsDatasetFormat(fmt)
    ensures r.Database? <==> IsDatabaseFormat(fmt)
    ensures r.NoWrite? <==> !IsDatasetFormat(fmt) && !IsDatabaseFormat(fmt)
    ensures r.Dataset? ==> r.path == path && r.format == fmt && r.partitioning == ["type"]
    ensures r.Dataset? ==> r.basename == "data_" + today + "_part-{i}." + fmt
    ensures r.Database? ==> r.file == path + "/symbols.sqlite" && r.table == "symbols"
  {
    if IsDatasetFormat(fmt) then Dataset(path, fmt, ["type"], "data_" + today + "_part-{i}." + fmt)
    else if IsDatabaseFormat(fmt) then Database(path + "/symbols.sqlite", "symbols")
    else NoWrite
  }

  /**
   * Saves on different days (dates of one width, as `date.isoformat` gives)
   * write dataset files under different basenames, so with
   * `existing_data_behavior="overwrite_or_ignore"` a later save never
   * overwrites an earlier day's files; the sqlite spellings all replace the
   * same table.
   */
  lemma {:induction false} DatedBasenamesDiffer(path: string, fmt: string, day1: string, day2: string)
    requires IsDatasetFormat(fmt) && |day1| == |day2| && day1 != day2
    ensures SaveTarget(path, fmt, day1).basename != SaveTarget(path, fmt, day2).basename
    ensures SaveTarget(path, "sqlite", day1) == SaveTarget(path, "sqlite3", day2) == SaveTarget(path, "sql", day1)
  {
    var i :| 0 <= i < |day1| && day1[i] != day2[i];
    var b1, b2 := SaveTarget(path, fmt, day1).basename, SaveTarget(path, fmt, day2).basename;
    assert b1[5 + i] == day1[i] by {
      assert b1 == "data_" + day1 + ("_part-{i}." + fmt);
    }
    assert b2[5 + i] == day2[i] by {
      assert b2 == "data_" + day2 + ("_part-{i}." + fmt);
    }
  }
}

=== FILE: engine.dfy ===
/**
 * `AsyncRequests.requests` of async_requests/async_requests.py put together:
 * the stored headers are replaced by the call's, the arguments are broadcast
 * into tasks, every task runs `_request` under its retry decorator, the
 * results are awaited in completion order and merged or unwrapped. The
 * network answers and the completion order are the `Network` oracle.
 */
module Engine {
  import opened Py
  import Broadcast
  import Executor
  import Merge

  /** The arguments of one `requests` call (`method`, `ssl` and `verbose` change nothing modelled). */
  datatype Request = Request(
    url: Value, params: Value, data: Value, json: Value,
    headers: Value, proxy: Option<string>, key: Value,
    parse: Option<Executor.ParseFunc>, returnType: Option<string>)

  /**
   * What the outside world decides: the environment of attempt `a` of task
   * `n` is `attempt(n, a)`, and `order` lists the task positions in the order
   * `asyncio.as_completed` yields them.
   */
  datatype Network = Network(attempt: (nat, nat) -> Executor.AttemptEnv, order: seq<nat>)

  /** The argument lists after `_to_list` and `_extend_list`. */
  function FieldsOf(req: Request): Result<Broadcast.Fields> {
    Broadcast.Normalize(req.url, req.params, req.data, req.json, req.key)
  }

  /** The tasks a request creates, or the exception raised while creating them. */
  function PlanOf(req: Request): (r: Result<seq<Broadcast.Task>>)
    ensures r == Broadcast.Plan(req.url, req.params, req.data, req.json, req.key)
    ensures r.Ok? ==> FieldsOf(req).Ok? && Broadcast.Tasks(FieldsOf(req).value) == r
  {
    var f :- FieldsOf(req);
    Broadcast.Tasks(f)
  }

  /** The completion order is a permutation of the tasks the request creates. */
  predicate Schedules(req: Request, net: Network) {
    PlanOf(req).Ok? ==> Merge.IsPermutation(net.order, |PlanOf(req).value|)
  }

  function TaskEnvs(net: Network, n: nat): (r: seq<Executor.AttemptEnv>)
    ensures |r| == Executor.MaxTries
    ensures forall a :: 0 <= a < Executor.MaxTries ==> r[a] == net.attempt(n, a)
  {
    seq(Executor.MaxTries, a requires 0 <= a => net.attempt(n, a))
  }

  /** The outcome of every task, by task position. */
  function RunTasks(s: Executor.Settings, pools: Executor.Pools, c: Executor.Call,
                    tasks: seq<Broadcast.Task>, net: Network): (r: seq<Result<Value>>)
    ensures |r| == |tasks|
    ensures forall n :: 0 <= n < |tasks| ==> r[n] == Executor.Execute(s, pools, c, tasks[n], TaskEnvs(net, n))
  {
    seq(|tasks|, n requires 0 <= n < |tasks| => Executor.Execute(s, pools, c, tasks[n], TaskEnvs(net, n)))
  }

  function CallOf(req: Request): Executor.Call {
    Executor.Call(req.proxy, req.parse, req.returnType)
  }

  /** The task outcomes of a request whose tasks could be created. */
  function Outcomes(s: Executor.Settings, pools: Executor.Pools, req: Request, net: Network): (r: seq<Result<Value>>)
    requires PlanOf(req).Ok?
    ensures |r| == |PlanOf(req).value|
  {
    RunTasks(s, pools, CallOf(req), PlanOf(req).value, net)
  }

  /** The task values in completion order, when every task succeeded. */
  function Completed(outcomes: seq<Result<Value>>, order: seq<nat>): (vs: seq<Value>)
    requires forall i :: 0 <= i < |order| ==> order[i] < |outcomes| && outcomes[order[i]].Ok?
    ensures |vs| == |order|
  {
    seq(|order|, i requires 0 <= i < |order| => outcomes[order[i]].value)
  }

  /**
   * Lines 199-219: the task outcomes awaited in completion order, the first
   * failure met raised, the values otherwise merged or unwrapped.
   */
  function Gather(keys: seq<Value>, outcomes: seq<Result<Value>>, order: seq<nat>): (r: Result<Value>)
    requires Merge.IsPermutation(order, |outcomes|)
    ensures r.Ok? ==> forall n :: 0 <= n < |outcomes| ==> outcomes[n].Ok?
    ensures (exists n :: 0 <= n < |outcomes| && outcomes[n].Err?) ==>
              && r.Err?
              && exists i :: 0 <= i < |order| && outcomes[order[i]] == r
                             && forall j :: 0 <= j < i ==> outcomes[order[j]].Ok?
    ensures (forall n :: 0 <= n < |outcomes| ==> outcomes[n].Ok?) ==>
              r == Merge.Finalize(keys, |outcomes|, Completed(outcomes, order))
  {
    Merge.CollectOnPermutation(outcomes, order);
    match Merge.Collect(outcomes, order)
    case Err(e) => Err(e)
    case Ok(results) =>
      assert results == Completed(outcomes, order);
      Merge.Finalize(keys, |outcomes|, results)
  }

  /**
   * Lines 160-219 with the settings already updated: a broadcasting error is
   * raised before any request is made, whatever the network does. Otherwise
   * every task runs; the call fails with the exception of the first failed
   * task in completion order, and when every task succeeded their values,
   * in completion order, are merged or unwrapped.
   */
  function Run(s: Executor.Settings, pools: Executor.Pools, req: Request, net: Network): (r: Result<Value>)
    requires Schedules(req, net)
    ensures PlanOf(req).Err? ==> r == Err(PlanOf(req).exc)
    ensures PlanOf(req).Ok? && r.Ok? ==>
              forall n :: 0 <= n < |PlanOf(req).value| ==> Outcomes(s, pools, req, net)[n].Ok?
    ensures PlanOf(req).Ok? ==> var outcomes := Outcomes(s, pools, req, net);
              (exists n :: 0 <= n < |outcomes| && outcomes[n].Err?) ==>
                && r.Err?
                && exists i :: 0 <= i < |net.order| && outcomes[net.order[i]] == r
                               && forall j :: 0 <= j < i ==> outcomes[net.order[j]].Ok?
    ensures PlanOf(req).Ok? ==> var outcomes := Outcomes(s, pools, req, net);
              (forall n :: 0 <= n < |outcomes| ==> outcomes[n].Ok?) ==>
                r == Merge.Finalize(FieldsOf(req).value.keys, |outcomes|, Completed(outcomes, net.order))
  {
    if PlanOf(req).Err? then Err(PlanOf(req).exc)
    else Gather(FieldsOf(req).value.keys, Outcomes(s, pools, req, net), net.order)
  }

  /** The instance state after the call and the call's result. */
  datatype Response = Response(settings: Executor.Settings, result: Result<Value>)

  /**
   * `AsyncRequests.requests`: headers passed to the call replace the stored
   * ones before anything else happens, and stay stored for later calls.
   */
  function Requests(s: Executor.Settings, pools: Executor.Pools, req: Request, net: Network): (r: Response)
    requires Schedules(req, net)
    ensures r.settings.useRandomProxy == s.useRandomProxy
    ensures r.settings.headers == if req.headers != VNone then req.headers else s.headers
    ensures r.result == Run(r.settings, pools, req, net)
  {
    var updated := Executor.WithCallHeaders(s, req.headers);
    Response(updated, Run(updated, pools, req, net))
  }

  /** Headers given to one call are used by the next call that gives none. */
  lemma CallHeadersPersist(s: Executor.Settings, pools: Executor.Pools, req1: Request, net1: Network,
                           req2: Request, net2: Network)
    requires Schedules(req1, net1) && Schedules(req2, net2)
    requires req1.headers != VNone && req2.headers == VNone
    ensures Requests(Requests(s, pools, req1, net1).settings, pools, req2, net2).settings.headers == req1.headers
  {
  }

  /** The task keys, by task position. */
  function KeysOf(tasks: seq<Broadcast.Task>): (ks: seq<Value>)
    ensures |ks| == |tasks|
    ensures forall n :: 0 <= n < |tasks| ==> ks[n] == tasks[n].key
  {
    seq(|tasks|, n requires 0 <= n < |tasks| => tasks[n].key)
  }

  /** A dict with the single key `k` is the display `{k: v}` of its entry. */
  lemma OneEntryDict(m: map<Value, Value>, k: Value)
    requires m.Keys == {k}
    ensures m == map[k := m[k]]
  {
  }

  /** The body of a `{key: body}` task outcome. */
  function BodyOf(o: Result<Value>, k: Value): Value {
    if o.Ok? && o.value.VDict? && k in o.value.entries then o.value.entries[k] else VNone
  }

  function BodiesOf(outcomes: seq<Result<Value>>, keys: seq<Value>): (bs: seq<Value>)
    requires |outcomes| == |keys|
    ensures |bs| == |keys|
    ensures forall n :: 0 <= n < |keys| ==> bs[n] == BodyOf(outcomes[n], keys[n])
  {
    seq(|keys|, n requires 0 <= n < |keys| => BodyOf(outcomes[n], keys[n]))
  }

  /** The premises of a keyed request without a parse function whose tasks all succeed. */
  predicate KeyedSuccess(s: Executor.Settings, pools: Executor.Pools, req: Request, net: Network) {
    && req.parse.None? && PlanOf(req).Ok? && |PlanOf(req).value| >= 1
    && Merge.Distinct(KeysOf(PlanOf(req).value))
    && (forall n :: 0 <= n < |PlanOf(req).value| ==> PlanOf(req).value[n].key != VNone)
    && Schedules(req, net)
    && (forall n :: 0 <= n < |PlanOf(req).value| ==> Outcomes(s, pools, req, net)[n].Ok?)
  }

  /** Without a parse function, a successful keyed task returns `{key: body}`. */
  lemma KeyedOutcomesOf(s: Executor.Settings, pools: Executor.Pools, req: Request, net: Network)
    requires KeyedSuccess(s, pools, req, net)
    ensures var keys := KeysOf(PlanOf(req).value);
            var outcomes := Outcomes(s, pools, req, net);
            outcomes == Merge.KeyedOutcomes(keys, BodiesOf(outcomes, keys))
  {
    var tasks := PlanOf(req).value;
    var outcomes := Outcomes(s, pools, req, net);
    var keys := KeysOf(tasks);
    forall n | 0 <= n < |tasks|
      ensures outcomes[n] == Ok(VDict(map[keys[n] := BodyOf(outcomes[n], keys[n])]))
    {
      Executor.ExecutedValueIsShaped(s, pools, CallOf(req), tasks[n], TaskEnvs(net, n));
      OneEntryDict(outcomes[n].value.entries, keys[n]);
    }
  }

  /** Such a request returns the dict pairing every task key with its task's body. */
  lemma KeyedRun(s: Executor.Settings, pools: Executor.Pools, req: Request, net: Network)
    requires KeyedSuccess(s, pools, req, net)
    ensures var keys := KeysOf(PlanOf(req).value);
            Run(s, pools, req, net) == Ok(VDict(Merge.Pairing(keys, BodiesOf(Outcomes(s, pools, req, net), keys))))
  {
    var tasks := PlanOf(req).value;
    var f := FieldsOf(req).value;
    var keys := KeysOf(tasks);
    var outcomes := Outcomes(s, pools, req, net);
    KeyedOutcomesOf(s, pools, req, net);
    var bodies := BodiesOf(outcomes, keys);
    Merge.KeyedMergeIgnoresOrder(keys, bodies, net.order);
    Merge.FinalizeReadsFirstKey(f.keys, keys, |tasks|, Merge.Collect(outcomes, net.order).value);
    assert Run(s, pools, req, net) == Gather(f.keys, outcomes, net.order);
  }

  /**
   * A keyed request without a parse function whose tasks all succeed and
   * whose keys are distinct returns the same dict whatever order the tasks
   * complete in, with one entry per task.
   */
  lemma KeyedRequestsIgnoreOrder(s: Executor.Settings, pools: Executor.Pools, req: Request,
                                 net1: Network, net2: Network)
    requires KeyedSuccess(s, pools, req, net1)
    requires Schedules(req, net2) && net1.attempt == net2.attempt
    ensures Run(s, pools, req, net1) == Run(s, pools, req, net2)
    ensures Run(s, pools, req, net1).Ok? && Run(s, pools, req, net1).value.VDict?
    ensures Run(s, pools, req, net1).value.entries.Keys == set n | 0 <= n < |PlanOf(req).value| :: PlanOf(req).value[n].key
  {
    SameAttemptsSameOutcomes(s, pools, req, net1, net2);
    assert KeyedSuccess(s, pools, req, net2);
    KeyedRun(s, pools, req, net1);
    KeyedRun(s, pools, req, net2);
    KeysOfSet(PlanOf(req).value);
  }

  /** The outcomes depend on the attempt environments only, not on the completion order. */
  lemma SameAttemptsSameOutcomes(s: Executor.Settings, pools: Executor.Pools, req: Request, net1: Network, net2: Network)
    requires PlanOf(req).Ok? && net1.attempt == net2.attempt
    ensures Outcomes(s, pools, req, net1) == Outcomes(s, pools, req, net2)
  {
    assert forall n :: TaskEnvs(net1, n) == TaskEnvs(net2, n);
  }

  /** The set of task keys, by position or through `KeysOf`. */
  lemma KeysOfSet(tasks: seq<Broadcast.Task>)
    ensures (set i | 0 <= i < |KeysOf(tasks)| :: KeysOf(tasks)[i]) == set n | 0 <= n < |tasks| :: tasks[n].key
  {
    var ks := KeysOf(tasks);
    var a := set i | 0 <= i < |ks| :: ks[i];
    var b := set n | 0 <= n < |tasks| :: tasks[n].key;
    forall k | k in a
      ensures k in b
    {
      var i :| 0 <= i < |ks| && ks[i] == k;
      assert tasks[i].key == k;
    }
    forall k | k in b
      ensures k in a
    {
      var n :| 0 <= n < |tasks| && tasks[n].key == k;
      assert ks[n] == k;
    }
  }

  /**
   * A request that creates a single unkeyed task returns exactly that task's
   * outcome: its value unwrapped from the result list, or its exception.
   */
  lemma SingleUnkeyedRequest(s: Executor.Settings, pools: Executor.Pools, req: Request, net: Network)
    requires Broadcast.Aligned(req.url, req.params, req.data, req.json, req.key, 1)
    requires req.key == VNone && net.order == [0]
    ensures Schedules(req, net)
    ensures Run(s, pools, req, net) == Executor.Execute(s, pools, CallOf(req), PlanOf(req).value[0], TaskEnvs(net, 0))
  {
    Broadcast.AlignedBroadcast(req.url, req.params, req.data, req.json, req.key, 1);
    assert Merge.IsPermutation([0], 1);
    var f := FieldsOf(req).value;
    assert f.keys == [VNone];
    var outcomes := Outcomes(s, pools, req, net);
    assert |outcomes| == 1;
    if outcomes[0].Ok? {
      Merge.CollectOnPermutation(outcomes, [0]);
      var c := Merge.Collect(outcomes, [0]);
      assert c.value == [outcomes[0].value];
    }
    assert Run(s, pools, req, net) == Gather(f.keys, outcomes, [0]);
  }
}

=== FILE: executor.dfy ===
/**
 * The single-request executor `AsyncRequests._request` of
 * async_requests/async_requests.py (lines 64-121) without its I/O: header
 * and proxy choice, status classification, body decoding, result shaping,
 * and the `backoff.on_exception(..., aiohttp.ClientError, max_tries=3)`
 * retry around the whole attempt. What the network does on each attempt
 * and which pool members `random.choice` draws are supplied as an oracle.
 */
module Executor {
  import opened Py
  import Utils
  import Broadcast

  /** `max_tries=3` of the backoff decorator. */
  const MaxTries: nat := 3

  /** The pools loaded at import time: USER_AGENTS and PROXIES of async_requests/config.py. */
  datatype Pools = Pools(userAgents: seq<string>, proxies: seq<string>)

  /** The state of an `AsyncRequests` instance that `_request` reads; `headers` is VNone when none are stored. */
  datatype Settings = Settings(headers: Value, useRandomProxy: bool)

  /**
   * Line 157-158 of `requests`: headers passed to the call replace the stored
   * ones (for this and every later call on the instance); None keeps them.
   */
  function WithCallHeaders(s: Settings, headers: Value): (r: Settings)
    ensures r.useRandomProxy == s.useRandomProxy
    ensures r.headers == (if headers != VNone then headers else s.headers)
  {
    if headers != VNone then s.(headers := headers) else s
  }

  /** The random draws of one attempt: which user agent and which proxy. */
  datatype Draw = Draw(agentPick: nat, proxyPick: nat)

  /** The headers and proxy one attempt sends its request with. */
  datatype Outgoing = Outgoing(headers: Value, proxy: Option<string>)

  /**
   * Lines 84-90: the stored headers if there are any, otherwise a fresh random
   * user agent; with `use_random_proxy` a fresh random proxy from the pool
   * replaces the caller's proxy. An empty pool makes `random.choice` raise
   * IndexError.
   */
  function ChooseHeadersAndProxy(s: Settings, pools: Pools, proxy: Option<string>, draw: Draw): (r: Result<Outgoing>)
    ensures r.Ok? <==> (s.headers != VNone || |pools.userAgents| > 0) && (!s.useRandomProxy || |pools.proxies| > 0)
    ensures r.Err? ==> r.exc == IndexError
    ensures r.Ok? && s.headers != VNone ==> r.value.headers == s.headers
    ensures r.Ok? && s.headers == VNone ==>
              exists ua :: ua in pools.userAgents && r.value.headers == Utils.UserAgentHeader(ua)
    ensures r.Ok? && s.useRandomProxy ==> r.value.proxy.Some? && r.value.proxy.value in pools.proxies
    ensures r.Ok? && !s.useRandomProxy ==> r.value.proxy == proxy
  {
    var headers :-
      if s.headers == VNone then Utils.RandomUserAgent(pools.userAgents, true, draw.agentPick)
      else Ok(s.headers);
    var chosen :-
      if s.useRandomProxy then Utils.RandomProxy(Utils.ProxyList(pools.proxies), draw.proxyPick)
      else Ok(proxy);
    Ok(Outgoing(headers, chosen))
  }

  /** A decoded body for each `return_type`: `response.json()`, `response.text()` and `response.read()`. */
  datatype Payload = Payload(json: Result<Value>, text: Result<Value>, raw: seq<Byte>)

  /** What the network answers to one attempt: a transport exception, or a status and a body. */
  datatype Wire = Raised(exc: Exc) | Responded(status: int, payload: Payload)

  /** Everything outside the program that one attempt depends on. */
  datatype AttemptEnv = AttemptEnv(draw: Draw, wire: Wire)

  /**
   * Lines 101-104: a status of 400 or more raises `ClientError(status)`. The
   * `>= 500` test comes second and is therefore never reached.
   */
  function Classify(status: int): (r: Option<Exc>)
    ensures r.Some? <==> status >= 400
    ensures r.Some? ==> r.value == ClientError(status)
  {
    if status >= 400 then Some(ClientError(status))
    else if status >= 500 then Some(ServerConnectionError(status))
    else None
  }

  /** Lines 105-111: `"json"` and `"text"` pick their decoders; any other return type reads the raw bytes. */
  function DecodeBody(returnType: Option<string>, p: Payload): (r: Result<Value>)
    ensures returnType == Some("json") ==> r == p.json
    ensures returnType == Some("text") ==> r == p.text
    ensures returnType != Some("json") && returnType != Some("text") ==> r == Ok(VBytes(p.raw))
  {
    if returnType == Some("json") then p.json
    else if returnType == Some("text") then p.text
    else Ok(VBytes(p.raw))
  }

  /**
   * A caller-supplied `parse_func`. It is applied to its positional arguments:
   * `(key, body)` or `(body)`; whatever it raises is its result's exception.
   */
  datatype ParseFunc = ParseFunc(call: seq<Value> -> Result<Value>)

  /**
   * Lines 113-121: with a parse function, its result for `(key, body)` when the
   * key is not None and for `(body)` otherwise; without one, `{key: body}` when
   * the key is not None (TypeError for an unhashable key) and the bare body
   * otherwise.
   */
  function Shape(key: Value, body: Value, parse: Option<ParseFunc>): (r: Result<Value>)
    ensures parse.Some? && key != VNone ==> r == parse.value.call([key, body])
    ensures parse.Some? && key == VNone ==> r == parse.value.call([body])
    ensures parse.None? && key == VNone ==> r == Ok(body)
    ensures parse.None? && key != VNone ==> (r.Ok? <==> Hashable(key))
    ensures parse.None? && key != VNone && r.Ok? ==>
              r.value.VDict? && r.value.entries.Keys == {key} && r.value.entries[key] == body
  {
    match parse
    case Some(f) => if key != VNone then f.call([key, body]) else f.call([body])
    case None =>
      if key == VNone then Ok(body)
      else if Hashable(key) then Ok(VDict(map[key := body]))
      else Err(TypeError)
  }

  /** The arguments shared by every task of one `requests` call. */
  datatype Call = Call(proxy: Option<string>, parse: Option<ParseFunc>, returnType: Option<string>)

  /** One execution of the body of `_request`. */
  function Attempt(s: Settings, pools: Pools, c: Call, t: Broadcast.Task, env: AttemptEnv): (r: Result<Value>)
    ensures ChooseHeadersAndProxy(s, pools, c.proxy, env.draw).Err? ==> r == Err(IndexError)
    ensures ChooseHeadersAndProxy(s, pools, c.proxy, env.draw).Ok? && env.wire.Raised? ==> r == Err(env.wire.exc)
    ensures ChooseHeadersAndProxy(s, pools, c.proxy, env.draw).Ok? && env.wire.Responded? && env.wire.status >= 400 ==>
              r == Err(ClientError(env.wire.status))
    ensures ChooseHeadersAndProxy(s, pools, c.proxy, env.draw).Ok? && env.wire.Responded? && env.wire.status < 400 ==>
              r == (if DecodeBody(c.returnType, env.wire.payload).Ok?
                    then Shape(t.key, DecodeBody(c.returnType, env.wire.payload).value, c.parse)
                    else DecodeBody(c.returnType, env.wire.payload))
    ensures r.Ok? ==> env.wire.Responded? && env.wire.status < 400 && DecodeBody(c.returnType, env.wire.payload).Ok?
    ensures r.Ok? ==> Shape(t.key, DecodeBody(c.returnType, env.wire.payload).value, c.parse) == r
  {
    var _ :- ChooseHeadersAndProxy(s, pools, c.proxy, env.draw);
    match env.wire
    case Raised(e) => Err(e)
    case Responded(status, payload) =>
      match Classify(status)
      case Some(e) => Err(e)
      case None =>
        var body :- DecodeBody(c.returnType, payload);
        Shape(t.key, body, c.parse)
  }

  /** The backoff decorator tries again after exactly these outcomes. */
  predicate Retryable(o: Result<Value>) {
    o.Err? && IsClientError(o.exc)
  }

  /** The attempts from `i` on, given the outcome each attempt would have. */
  function RetryFrom(outcomes: seq<Result<Value>>, i: nat): (r: (Result<Value>, nat))
    requires |outcomes| == MaxTries && i < MaxTries
    ensures i < r.1 <= MaxTries
    ensures r.0 == outcomes[r.1 - 1]
    ensures forall j :: i <= j < r.1 - 1 ==> Retryable(outcomes[j])
    ensures r.1 < MaxTries ==> !Retryable(outcomes[r.1 - 1])
    decreases MaxTries - i
  {
    if i + 1 < MaxTries && Retryable(outcomes[i]) then RetryFrom(outcomes, i + 1)
    else (outcomes[i], i + 1)
  }

  /**
   * `backoff.on_exception(backoff.expo, aiohttp.ClientError, max_tries=3)`:
   * the outcome of the first attempt that does not raise a ClientError, or the
   * ClientError of the third attempt; the second component counts the attempts.
   */
  function Retry(outcomes: seq<Result<Value>>): (r: (Result<Value>, nat))
    requires |outcomes| == MaxTries
    ensures 1 <= r.1 <= MaxTries
    ensures r.0 == outcomes[r.1 - 1]
    ensures forall j :: 0 <= j < r.1 - 1 ==> Retryable(outcomes[j])
    ensures r.1 < MaxTries ==> !Retryable(outcomes[r.1 - 1])
  {
    RetryFrom(outcomes, 0)
  }

  /**
   * The same retry loop as the decorator runs it: attempt, stop on anything but
   * a ClientError, give up after the third attempt.
   */
  method RetryLoop(outcomes: seq<Result<Value>>) returns (result: Result<Value>, attempts: nat)
    requires |outcomes| == MaxTries
    ensures 1 <= attempts <= MaxTries
    ensures result == outcomes[attempts - 1]
    ensures forall j :: 0 <= j < attempts - 1 ==> Retryable(outcomes[j])
    ensures attempts < MaxTries ==> !Retryable(outcomes[attempts - 1])
  {
    attempts := 1;
    result := outcomes[0];
    while attempts < MaxTries && Retryable(result)
      invariant 1 <= attempts <= MaxTries
      invariant result == outcomes[attempts - 1]
      invariant forall j :: 0 <= j < attempts - 1 ==> Retryable(outcomes[j])
      decreases MaxTries - attempts
    {
      attempts := attempts + 1;
      result := outcomes[attempts - 1];
    }
  }

  /** The outcome of every attempt a task may make, one environment per attempt. */
  function Outcomes(s: Settings, pools: Pools, c: Call, t: Broadcast.Task, envs: seq<AttemptEnv>): (r: seq<Result<Value>>)
    requires |envs| == MaxTries
    ensures |r| == MaxTries
    ensures forall i :: 0 <= i < MaxTries ==> r[i] == Attempt(s, pools, c, t, envs[i])
  {
    seq(MaxTries, i requires 0 <= i < MaxTries => Attempt(s, pools, c, t, envs[i]))
  }

  /** One task: `_request` under its retry decorator. */
  function Execute(s: Settings, pools: Pools, c: Call, t: Broadcast.Task, envs: seq<AttemptEnv>): Result<Value>
    requires |envs| == MaxTries
  {
    Retry(Outcomes(s, pools, c, t, envs)).0
  }

  /** An error status never reaches the `ServerConnectionError` branch: 5xx raises the plain ClientError too. */
  lemma ServerErrorBranchUnreachable(status: int)
    ensures Classify(status) != Some(ServerConnectionError(status))
    ensures status >= 500 ==> Classify(status) == Some(ClientError(status))
  {
  }

  /** Every error status is retried: it raises a ClientError. */
  lemma ErrorStatusIsRetryable(s: Settings, pools: Pools, c: Call, t: Broadcast.Task, env: AttemptEnv)
    requires ChooseHeadersAndProxy(s, pools, c.proxy, env.draw).Ok?
    requires env.wire.Responded? && env.wire.status >= 400
    ensures Retryable(Attempt(s, pools, c, t, env))
  {
  }

  /**
   * Two failing attempts followed by a response below 400 with a decodable
   * body: the task's result is that body, shaped.
   */
  lemma FailTwiceThenSucceed(s: Settings, pools: Pools, c: Call, t: Broadcast.Task, envs: seq<AttemptEnv>)
    requires |envs| == MaxTries
    requires Retryable(Attempt(s, pools, c, t, envs[0])) && Retryable(Attempt(s, pools, c, t, envs[1]))
    requires ChooseHeadersAndProxy(s, pools, c.proxy, envs[2].draw).Ok?
    requires envs[2].wire.Responded? && envs[2].wire.status < 400
    requires DecodeBody(c.returnType, envs[2].wire.payload).Ok?
    ensures Execute(s, pools, c, t, envs) == Shape(t.key, DecodeBody(c.returnType, envs[2].wire.payload).value, c.parse)
  {
    var r := Retry(Outcomes(s, pools, c, t, envs));
    assert r.1 == 3;
  }

  /**
   * A first attempt answered below 400 with a decodable body settles the task
   * unless shaping raises a ClientError: the task's result is the shaped body.
   */
  lemma FirstGoodResponseDecides(s: Settings, pools: Pools, c: Call, t: Broadcast.Task, envs: seq<AttemptEnv>)
    requires |envs| == MaxTries
    requires ChooseHeadersAndProxy(s, pools, c.proxy, envs[0].draw).Ok?
    requires envs[0].wire.Responded? && envs[0].wire.status < 400
    requires DecodeBody(c.returnType, envs[0].wire.payload).Ok?
    requires !Retryable(Shape(t.key, DecodeBody(c.returnType, envs[0].wire.payload).value, c.parse))
    ensures Execute(s, pools, c, t, envs) == Shape(t.key, DecodeBody(c.returnType, envs[0].wire.payload).value, c.parse)
  {
    var r := Retry(Outcomes(s, pools, c, t, envs));
    assert r.1 == 1;
  }

  /** Three ClientErrors in a row: the task fails with the last one. */
  lemma FailEveryAttempt(s: Settings, pools: Pools, c: Call, t: Broadcast.Task, envs: seq<AttemptEnv>)
    requires |envs| == MaxTries
    requires forall i :: 0 <= i < MaxTries ==> Retryable(Attempt(s, pools, c, t, envs[i]))
    ensures Execute(s, pools, c, t, envs) == Attempt(s, pools, c, t, envs[2])
    ensures Execute(s, pools, c, t, envs).Err? && IsClientError(Execute(s, pools, c, t, envs).exc)
  {
    var r := Retry(Outcomes(s, pools, c, t, envs));
    assert r.1 == 3;
  }

  /** The first attempt that succeeds or raises anything but a ClientError decides the task. */
  lemma FirstSettledAttemptDecides(s: Settings, pools: Pools, c: Call, t: Broadcast.Task, envs: seq<AttemptEnv>, k: nat)
    requires |envs| == MaxTries && k < MaxTries
    requires forall j :: 0 <= j < k ==> Retryable(Attempt(s, pools, c, t, envs[j]))
    requires !Retryable(Attempt(s, pools, c, t, envs[k]))
    ensures Execute(s, pools, c, t, envs) == Attempt(s, pools, c, t, envs[k])
  {
    var r := Retry(Outcomes(s, pools, c, t, envs));
    assert r.1 - 1 == k;
  }

  /**
   * A successful task's value is the shaped body of one of its attempts, one
   * whose pool draw succeeded and whose response was below 400: with a parse
   * function and a non-null key it is `parse_func(key, body)`.
   */
  lemma ExecutedValueIsShaped(s: Settings, pools: Pools, c: Call, t: Broadcast.Task, envs: seq<AttemptEnv>)
    requires |envs| == MaxTries
    requires Execute(s, pools, c, t, envs).Ok?
    ensures exists i :: 0 <= i < MaxTries && ChooseHeadersAndProxy(s, pools, c.proxy, envs[i].draw).Ok?
              && envs[i].wire.Responded? && envs[i].wire.status < 400
              && DecodeBody(c.returnType, envs[i].wire.payload).Ok?
              && Execute(s, pools, c, t, envs)
                 == Shape(t.key, DecodeBody(c.returnType, envs[i].wire.payload).value, c.parse)
  {
    var r := Retry(Outcomes(s, pools, c, t, envs));
    var i := r.1 - 1;
    assert Attempt(s, pools, c, t, envs[i]).Ok?;
  }
}

=== FILE: merge.dfy ===
/**
 * The end of `AsyncRequests.requests` in async_requests/async_requests.py
 * (lines 199-219): awaiting the tasks in completion order, merging keyed
 * dict results into one dict, and unwrapping a one-url batch. Completion
 * order is an input: a permutation of the task positions.
 */
module Merge {
  import opened Py

  /** `order` lists every task position `0 <= t < n` exactly once. */
  predicate IsPermutation(order: seq<nat>, n: nat) {
    && |order| == n
    && (forall i :: 0 <= i < n ==> order[i] < n)
    && (forall i, j :: 0 <= i < j < n ==> order[i] != order[j])
    && (forall t :: 0 <= t < n ==> t in order)
  }

  /**
   * `[await task for task in asyncio.as_completed(tasks)]`: the task values in
   * completion order; the first failed task met in that order raises its
   * exception out of `requests`.
   */
  function Collect(outcomes: seq<Result<Value>>, order: seq<nat>): (r: Result<seq<Value>>)
    requires forall i :: 0 <= i < |order| ==> order[i] < |outcomes|
    ensures r.Ok? <==> forall i :: 0 <= i < |order| ==> outcomes[order[i]].Ok?
    ensures r.Ok? ==> |r.value| == |order|
    ensures r.Ok? ==> forall i :: 0 <= i < |order| ==> r.value[i] == outcomes[order[i]].value
    ensures r.Err? ==> exists i :: 0 <= i < |order| && outcomes[order[i]] == Err(r.exc)
                                   && forall j :: 0 <= j < i ==> outcomes[order[j]].Ok?
  {
    if |order| == 0 then Ok([])
    else
      var first :- outcomes[order[0]];
      var rest :- Collect(outcomes, order[1..]);
      assert forall i :: 1 <= i < |order| ==> order[1..][i - 1] == order[i];
      Ok([first] + rest)
  }

  /** Over a permutation, collecting succeeds exactly when every task succeeded. */
  lemma CollectOnPermutation(outcomes: seq<Result<Value>>, order: seq<nat>)
    requires IsPermutation(order, |outcomes|)
    ensures Collect(outcomes, order).Ok? <==> forall n :: 0 <= n < |outcomes| ==> outcomes[n].Ok?
  {
    if Collect(outcomes, order).Ok? {
      forall n | 0 <= n < |outcomes|
        ensures outcomes[n].Ok?
      {
        assert n in order;
        var i :| 0 <= i < |order| && order[i] == n;
      }
    }
  }

  predicate AllDicts(results: seq<Value>) {
    forall i :: 0 <= i < |results| ==> results[i].VDict?
  }

  /**
   * `(k, v[k]) for k in ks` for a sequence `v` whose items are `xs`, gathered
   * into a dict: every `k` paired with `v[k]`, the first failing subscription
   * raising.
   */
  function Lookups(xs: seq<Value>, ks: seq<Value>): (r: Result<map<Value, Value>>)
    ensures r.Ok? <==> forall i :: 0 <= i < |ks| ==> Index(xs, ks[i]).Ok?
    ensures r.Ok? ==> forall k :: k in r.value ==> k in ks
    ensures r.Ok? ==> forall i :: 0 <= i < |ks| ==> ks[i] in r.value && r.value[ks[i]] == Index(xs, ks[i]).value
    ensures r.Err? ==> exists i :: 0 <= i < |ks| && Index(xs, ks[i]) == Err(r.exc)
                                   && forall j :: 0 <= j < i ==> Index(xs, ks[j]).Ok?
  {
    if |ks| == 0 then Ok(map[])
    else
      var last := |ks| - 1;
      var init := ks[..last];
      assert forall i :: 0 <= i < |init| ==> init[i] == ks[i];
      var prefix :- Lookups(xs, init);
      var x :- Index(xs, ks[last]);
      Ok(prefix[ks[last] := x])
  }

  /**
   * The pairs `(k, v[k]) for k in v` that one result contributes to the merged
   * dict. A dict contributes its own entries. A list or a tuple is iterated
   * and subscripted by each of its elements, so every element must be an
   * integer index into it; a string is subscripted by its one-character
   * substrings, which fails unless it is empty; bytes are subscripted by their
   * integer codes. None and integers are not iterable: TypeError.
   */
  function Entries(v: Value): (r: Result<map<Value, Value>>)
    ensures v.VDict? ==> r == Ok(v.entries)
    ensures v.VNone? || v.VInt? ==> r == Err(TypeError)
    ensures v.VStr? ==> r == if |v.s| == 0 then Ok(map[]) else Err(TypeError)
    ensures (v.VList? || v.VTuple?) ==> var xs := AsList(v).value;
              && (r.Ok? <==> forall i :: 0 <= i < |xs| ==> xs[i].VInt? && -|xs| <= xs[i].i < |xs|)
              && (r.Ok? ==> forall k :: k in r.value ==> k in xs)
              && (r.Ok? ==> forall i :: 0 <= i < |xs| ==> xs[i] in r.value && r.value[xs[i]] == Index(xs, xs[i]).value)
    ensures v.VBytes? ==> var b := v.bytes;
              && (r.Ok? <==> forall i :: 0 <= i < |b| ==> (b[i] as int) < |b|)
              && (r.Ok? ==> forall i :: 0 <= i < |b| ==>
                              VInt(b[i] as int) in r.value && r.value[VInt(b[i] as int)] == VInt(b[b[i]] as int))
  {
    if v.VDict? then Ok(v.entries)
    else
      var xs :- AsList(v);
      SequenceLookups(v);
      BytesLookups(v);
      StringLookups(v);
      Lookups(xs, xs)
  }

  /** A list or tuple subscripted by its own elements: each must be an index into it. */
  lemma SequenceLookups(v: Value)
    ensures (v.VList? || v.VTuple?) ==> var xs := AsList(v).value; var r := Lookups(xs, xs);
              && (r.Ok? <==> forall i :: 0 <= i < |xs| ==> xs[i].VInt? && -|xs| <= xs[i].i < |xs|)
              && (r.Ok? ==> forall k :: k in r.value ==> k in xs)
              && (r.Ok? ==> forall i :: 0 <= i < |xs| ==> xs[i] in r.value && r.value[xs[i]] == Index(xs, xs[i]).value)
  {
  }

  /** Bytes subscripted by their own codes: each code must be a position of the bytes. */
  lemma BytesLookups(v: Value)
    ensures v.VBytes? ==> var b := v.bytes; var r := Lookups(AsList(v).value, AsList(v).value);
              && (r.Ok? <==> forall i :: 0 <= i < |b| ==> (b[i] as int) < |b|)
              && (r.Ok? ==> forall i :: 0 <= i < |b| ==>
                              VInt(b[i] as int) in r.value && r.value[VInt(b[i] as int)] == VInt(b[b[i]] as int))
  {
    if v.VBytes? {
      var b := v.bytes;
      var xs := AsList(v).value;
      forall i | 0 <= i < |b|
        ensures Index(xs, xs[i]).Ok? <==> (b[i] as int) < |b|
        ensures Index(xs, xs[i]).Ok? ==> Index(xs, xs[i]).value == VInt(b[b[i]] as int)
      {
        assert xs[i] == VInt(b[i] as int);
      }
    }
  }

  /** A string subscripted by its own characters: TypeError unless there are none. */
  lemma StringLookups(v: Value)
    ensures v.VStr? ==> Lookups(AsList(v).value, AsList(v).value) == if |v.s| == 0 then Ok(map[]) else Err(TypeError)
  {
    if v.VStr? && |v.s| > 0 {
      var xs := AsList(v).value;
      assert Index(xs, xs[0]) == Err(TypeError);
    }
  }

  /** The contribution of every result, in completion order; the first result that cannot be read raises. */
  function EntryMaps(results: seq<Value>): (r: Result<seq<map<Value, Value>>>)
    ensures r.Ok? <==> forall i :: 0 <= i < |results| ==> Entries(results[i]).Ok?
    ensures r.Ok? ==> |r.value| == |results|
    ensures r.Ok? ==> forall i :: 0 <= i < |results| ==> r.value[i] == Entries(results[i]).value
    ensures r.Err? ==> exists i :: 0 <= i < |results| && Entries(results[i]) == Err(r.exc)
                                   && forall j :: 0 <= j < i ==> Entries(results[j]).Ok?
  {
    if |results| == 0 then Ok([])
    else
      var last := |results| - 1;
      var init := results[..last];
      assert forall i :: 0 <= i < |init| ==> init[i] == results[i];
      var prefix :- EntryMaps(init);
      var m :- Entries(results[last]);
      Ok(prefix + [m])
  }

  /** Every key of every map in `ms`. */
  function AllKeys(ms: seq<map<Value, Value>>): (ks: set<Value>)
    ensures forall k :: k in ks <==> exists i :: 0 <= i < |ms| && k in ms[i]
  {
    if |ms| == 0 then {}
    else
      var init := ms[..|ms| - 1];
      assert forall i :: 0 <= i < |init| ==> init[i] == ms[i];
      AllKeys(init) + ms[|ms| - 1].Keys
  }

  /** The position of the last map in `ms` that holds `k`. */
  function LastHolder(ms: seq<map<Value, Value>>, k: Value): (j: nat)
    requires k in AllKeys(ms)
    ensures j < |ms| && k in ms[j]
    ensures forall i :: j < i < |ms| ==> k !in ms[i]
  {
    var last := |ms| - 1;
    if k in ms[last] then last
    else
      var init := ms[..last];
      assert forall i :: 0 <= i < |init| ==> init[i] == ms[i];
      LastHolder(init, k)
  }

  /** The maps of `ms` inserted one after the other into one dict: a later map overwrites an earlier one. */
  function Union(ms: seq<map<Value, Value>>): (m: map<Value, Value>)
    ensures m.Keys == AllKeys(ms)
    ensures forall k :: k in m ==> m[k] == ms[LastHolder(ms, k)][k]
  {
    if |ms| == 0 then map[]
    else
      var last := |ms| - 1;
      var init := ms[..last];
      assert forall i :: 0 <= i < |init| ==> init[i] == ms[i];
      Union(init) + ms[last]
  }

  /**
   * `dict((k, _results[k]) for _results in results for k in _results)`: every
   * pair contributed by every result, in completion order, each key mapped to
   * its value in the LAST result contributing it. The first result that
   * cannot be iterated and subscripted raises, and nothing is merged.
   */
  function Flatten(results: seq<Value>): (r: Result<map<Value, Value>>)
    ensures r.Ok? <==> forall i :: 0 <= i < |results| ==> Entries(results[i]).Ok?
    ensures r.Err? ==> exists i :: 0 <= i < |results| && Entries(results[i]) == Err(r.exc)
                                   && forall j :: 0 <= j < i ==> Entries(results[j]).Ok?
    ensures r.Ok? ==> var ms := EntryMaps(results).value;
              && r.value.Keys == AllKeys(ms)
              && forall k :: k in r.value ==> r.value[k] == ms[LastHolder(ms, k)][k]
  {
    var ms :- EntryMaps(results);
    Ok(Union(ms))
  }

  /**
   * Lines 210-219. Line 210 tests whether the result list is a dict, which it
   * never is, so only the test of line 213 matters: when the first key is not
   * None and the first completed result is a dict, all results are flattened
   * into one dict. Then a one-url batch whose results are still a list is
   * unwrapped to its only element. `key[0]` and `results[0]` raise IndexError
   * on empty lists.
   */
  function Finalize(keys: seq<Value>, urlCount: nat, results: seq<Value>): (r: Result<Value>)
    requires |results| == urlCount
    ensures |keys| == 0 ==> r == Err(IndexError)
    ensures |keys| > 0 && keys[0] != VNone && urlCount == 0 ==> r == Err(IndexError)
    ensures |keys| > 0 && keys[0] != VNone && urlCount > 0 && results[0].VDict? ==>
              && (r.Ok? <==> forall i :: 0 <= i < urlCount ==> Entries(results[i]).Ok?)
              && (r.Ok? ==> r.value.VDict? && r.value.entries == Flatten(results).value)
              && (r.Err? ==> exists i :: 0 <= i < urlCount && Entries(results[i]) == Err(r.exc)
                                        && forall j :: 0 <= j < i ==> Entries(results[j]).Ok?)
    ensures |keys| > 0 && (keys[0] == VNone || (urlCount > 0 && !results[0].VDict?)) ==>
              r == Ok(if urlCount == 1 then results[0] else VList(results))
  {
    if |keys| == 0 then Err(IndexError)
    else
      var merged :-
        if keys[0] != VNone then
          if |results| == 0 then Err(IndexError)
          else if results[0].VDict? then
            var m :- Flatten(results);
            Ok(VDict(m))
          else Ok(VList(results))
        else Ok(VList(results));
      if urlCount == 1 && merged.VList? then Ok(merged.items[0]) else Ok(merged)
  }

  /** Of the key list, `Finalize` reads only `key[0]`. */
  lemma FinalizeReadsFirstKey(keys1: seq<Value>, keys2: seq<Value>, urlCount: nat, results: seq<Value>)
    requires |results| == urlCount && |keys1| > 0 && |keys2| > 0 && keys1[0] == keys2[0]
    ensures Finalize(keys1, urlCount, results) == Finalize(keys2, urlCount, results)
  {
  }

  /** The outcome of a keyed task without a parse function: `{key: body}`. */
  function KeyedOutcomes(keys: seq<Value>, bodies: seq<Value>): (r: seq<Result<Value>>)
    requires |keys| == |bodies|
    ensures |r| == |keys|
    ensures forall i :: 0 <= i < |keys| ==> r[i] == Ok(VDict(map[keys[i] := bodies[i]]))
  {
    seq(|keys|, i requires 0 <= i < |keys| => Ok(VDict(map[keys[i] := bodies[i]])))
  }

  predicate Distinct(keys: seq<Value>) {
    forall i, j :: 0 <= i < j < |keys| ==> keys[i] != keys[j]
  }

  /** The dict that pairs every key with its own body. */
  function Pairing(keys: seq<Value>, bodies: seq<Value>): (m: map<Value, Value>)
    requires |keys| == |bodies| && Distinct(keys)
    ensures m.Keys == set i | 0 <= i < |keys| :: keys[i]
    ensures forall i :: 0 <= i < |keys| ==> m[keys[i]] == bodies[i]
  {
    map i | 0 <= i < |keys| :: keys[i] := bodies[i]
  }

  lemma CollectKeyed(keys: seq<Value>, bodies: seq<Value>, order: seq<nat>)
    requires |keys| == |bodies| && IsPermutation(order, |keys|)
    ensures Collect(KeyedOutcomes(keys, bodies), order).Ok?
    ensures var rs := Collect(KeyedOutcomes(keys, bodies), order).value;
            && |rs| == |keys| && AllDicts(rs)
            && forall i :: 0 <= i < |keys| ==> rs[i] == VDict(map[keys[order[i]] := bodies[order[i]]])
  {
  }

  /** Every request's key is held by the result of the completion slot that request occupies. */
  lemma KeyedResultsCoverKeys(keys: seq<Value>, bodies: seq<Value>, order: seq<nat>, rs: seq<Value>, t: nat)
    requires |keys| == |bodies| && IsPermutation(order, |keys|) && t < |keys|
    requires |rs| == |keys| && AllDicts(rs)
    requires forall i :: 0 <= i < |keys| ==> rs[i] == VDict(map[keys[order[i]] := bodies[order[i]]])
    ensures EntryMaps(rs).Ok? && keys[t] in AllKeys(EntryMaps(rs).value)
  {
    assert t in order;
    var i :| 0 <= i < |order| && order[i] == t;
    assert keys[t] in EntryMaps(rs).value[i];
  }

  /** With distinct keys, the only dict holding a key is the result of the request carrying it. */
  lemma HolderIsOwnRequest(keys: seq<Value>, bodies: seq<Value>, order: seq<nat>, rs: seq<Value>, k: Value)
    requires |keys| == |bodies| && Distinct(keys) && IsPermutation(order, |keys|)
    requires |rs| == |keys| && AllDicts(rs)
    requires forall i :: 0 <= i < |keys| ==> rs[i] == VDict(map[keys[order[i]] := bodies[order[i]]])
    requires EntryMaps(rs).Ok? && k in AllKeys(EntryMaps(rs).value)
    ensures k in Pairing(keys, bodies)
    ensures var ms := EntryMaps(rs).value; ms[LastHolder(ms, k)][k] == Pairing(keys, bodies)[k]
  {
    var ms := EntryMaps(rs).value;
    var i := LastHolder(ms, k);
    assert ms[i] == rs[i].entries;
    assert keys[order[i]] == k;
  }

  /** A keyed batch whose first key is not None merges into the flattened dict. */
  lemma KeyedFinalizeFlattens(keys: seq<Value>, rs: seq<Value>)
    requires |keys| == |rs| >= 1 && keys[0] != VNone && AllDicts(rs)
    ensures Finalize(keys, |keys|, rs) == Ok(VDict(Flatten(rs).value))
  {
  }

  /** Premises shared by the keyed-merge lemmas: `rs` are the keyed results in completion order. */
  predicate KeyedCompletion(keys: seq<Value>, bodies: seq<Value>, order: seq<nat>, rs: seq<Value>) {
    && |keys| == |bodies| && Distinct(keys) && IsPermutation(order, |keys|)
    && |rs| == |keys| && AllDicts(rs)
    && forall i :: 0 <= i < |keys| ==> rs[i] == VDict(map[keys[order[i]] := bodies[order[i]]])
  }

  lemma PairingKeysMerged(keys: seq<Value>, bodies: seq<Value>, order: seq<nat>, rs: seq<Value>)
    requires KeyedCompletion(keys, bodies, order, rs)
    ensures Pairing(keys, bodies).Keys <= Flatten(rs).value.Keys
  {
    forall k | k in Pairing(keys, bodies).Keys
      ensures k in Flatten(rs).value.Keys
    {
      var t :| 0 <= t < |keys| && keys[t] == k;
      KeyedResultsCoverKeys(keys, bodies, order, rs, t);
    }
  }

  lemma MergedAgreesWithPairing(keys: seq<Value>, bodies: seq<Value>, order: seq<nat>, rs: seq<Value>)
    requires KeyedCompletion(keys, bodies, order, rs)
    ensures forall k :: k in Flatten(rs).value ==>
              k in Pairing(keys, bodies) && Flatten(rs).value[k] == Pairing(keys, bodies)[k]
  {
    forall k | k in Flatten(rs).value
      ensures k in Pairing(keys, bodies) && Flatten(rs).value[k] == Pairing(keys, bodies)[k]
    {
      HolderIsOwnRequest(keys, bodies, order, rs, k);
    }
  }

  lemma SameEntries(m: map<Value, Value>, p: map<Value, Value>)
    requires p.Keys <= m.Keys
    requires forall k :: k in m ==> k in p && m[k] == p[k]
    ensures m == p
  {
  }

  /** The flattened keyed results pair every key with its own body. */
  lemma FlattenKeyedIsPairing(keys: seq<Value>, bodies: seq<Value>, order: seq<nat>, rs: seq<Value>)
    requires KeyedCompletion(keys, bodies, order, rs)
    ensures Flatten(rs).value == Pairing(keys, bodies)
  {
    var m := Flatten(rs).value;
    var p := Pairing(keys, bodies);
    PairingKeysMerged(keys, bodies, order, rs);
    MergedAgreesWithPairing(keys, bodies, order, rs);
    SameEntries(m, p);
  }

  /**
   * With distinct keys, the merged dict pairs every key with the body of its
   * own request, whatever order the requests complete in.
   */
  lemma KeyedMergeIgnoresOrder(keys: seq<Value>, bodies: seq<Value>, order: seq<nat>)
    requires |keys| == |bodies| >= 1 && Distinct(keys)
    requires forall i :: 0 <= i < |keys| ==> keys[i] != VNone
    requires IsPermutation(order, |keys|)
    ensures Collect(KeyedOutcomes(keys, bodies), order).Ok?
    ensures Finalize(keys, |keys|, Collect(KeyedOutcomes(keys, bodies), order).value)
            == Ok(VDict(Pairing(keys, bodies)))
  {
    CollectKeyed(keys, bodies, order);
    var rs := Collect(KeyedOutcomes(keys, bodies), order).value;
    KeyedFinalizeFlattens(keys, rs);
    FlattenKeyedIsPairing(keys, bodies, order, rs);
  }

  /** Of two dicts under the same key, the merge keeps the value of the later one. */
  lemma LaterDictWins(k: Value, first: Value, last: Value)
    requires k != VNone
    ensures Finalize([k, k], 2, [VDict(map[k := first]), VDict(map[k := last])]) == Ok(VDict(map[k := last]))
  {
    var rs := [VDict(map[k := first]), VDict(map[k := last])];
    KeyedFinalizeFlattens([k, k], rs);
    var ms := EntryMaps(rs).value;
    assert ms[1] == map[k := last];
    assert k in AllKeys(ms);
    SameEntries(Flatten(rs).value, map[k := last]);
  }

  /**
   * Two requests under the same key: the merged dict holds the body of the one
   * that completed last, for both completion orders.
   */
  lemma CollisionLastCompletedWins(k: Value, b0: Value, b1: Value)
    requires k != VNone
    ensures var outcomes := KeyedOutcomes([k, k], [b0, b1]);
            && Collect(outcomes, [0, 1]).Ok? && Collect(outcomes, [1, 0]).Ok?
            && Finalize([k, k], 2, Collect(outcomes, [0, 1]).value) == Ok(VDict(map[k := b1]))
            && Finalize([k, k], 2, Collect(outcomes, [1, 0]).value) == Ok(VDict(map[k := b0]))
  {
    var d0 := VDict(map[k := b0]);
    var d1 := VDict(map[k := b1]);
    CollectKeyed([k, k], [b0, b1], [0, 1]);
    CollectKeyed([k, k], [b0, b1], [1, 0]);
    var outcomes := KeyedOutcomes([k, k], [b0, b1]);
    assert Collect(outcomes, [0, 1]).value == [d0, d1];
    assert Collect(outcomes, [1, 0]).value == [d1, d0];
    LaterDictWins(k, b0, b1);
    LaterDictWins(k, b1, b0);
  }

  /**
   * The merged dict has one entry per distinct key: as many entries as
   * requests exactly when no two requests share a key.
   */
  lemma {:induction false} MergedSizeCountsDistinctKeys(keys: seq<Value>, bodies: seq<Value>, order: seq<nat>)
    requires |keys| == |bodies| >= 1
    requires forall i :: 0 <= i < |keys| ==> keys[i] != VNone
    requires IsPermutation(order, |keys|)
    ensures Collect(KeyedOutcomes(keys, bodies), order).Ok?
    ensures var r := Finalize(keys, |keys|, Collect(KeyedOutcomes(keys, bodies), order).value);
            && r.Ok? && r.value.VDict?
            && r.value.entries.Keys == Members(keys)
            && (|r.value.entries| == |keys| <==> Distinct(keys))
  {
    CollectKeyed(keys, bodies, order);
    var rs := Collect(KeyedOutcomes(keys, bodies), order).value;
    KeyedFinalizeFlattens(keys, rs);
    KeyedMergedKeys(keys, bodies, order, rs);
    var m := Flatten(rs).value;
    assert |m| == |m.Keys|;
    DistinctCount(keys);
  }

  /** The keys of the merged keyed results are the request keys. */
  lemma KeyedMergedKeys(keys: seq<Value>, bodies: seq<Value>, order: seq<nat>, rs: seq<Value>)
    requires |keys| == |bodies| && IsPermutation(order, |keys|)
    requires |rs| == |keys| && AllDicts(rs)
    requires forall i :: 0 <= i < |keys| ==> rs[i] == VDict(map[keys[order[i]] := bodies[order[i]]])
    ensures Flatten(rs).Ok? && Flatten(rs).value.Keys == Members(keys)
  {
    var ks := Members(keys);
    MembersAre(keys);
    var ms := EntryMaps(rs).value;
    forall k | k in ks
      ensures k in AllKeys(ms)
    {
      var t :| 0 <= t < |keys| && keys[t] == k;
      KeyedResultsCoverKeys(keys, bodies, order, rs, t);
    }
    forall k | k in AllKeys(ms)
      ensures k in ks
    {
      var i := LastHolder(ms, k);
      assert ms[i] == rs[i].entries;
      assert keys[order[i]] == k;
    }
  }

  /** The distinct members of `keys`. */
  function Members(keys: seq<Value>): set<Value> {
    if |keys| == 0 then {}
    else Members(keys[..|keys| - 1]) + {keys[|keys| - 1]}
  }

  lemma {:induction false} MembersAre(keys: seq<Value>)
    ensures forall x :: x in Members(keys) <==> x in keys
  {
    if |keys| > 0 {
      var last := |keys| - 1;
      MembersAre(keys[..last]);
      assert keys == keys[..last] + [keys[last]];
    }
  }

  /** A list holds as many distinct members as elements exactly when no member repeats. */
  lemma {:induction false} DistinctCount(keys: seq<Value>)
    ensures |Members(keys)| <= |keys|
    ensures |Members(keys)| == |keys| <==> Distinct(keys)
  {
    if |keys| > 0 {
      var last := |keys| - 1;
      var init := keys[..last];
      DistinctCount(init);
      MembersAre(init);
      if keys[last] in init {
        var j :| 0 <= j < last && init[j] == keys[last];
        assert keys[j] == keys[last];
      } else {
        DistinctFreshLast(keys);
      }
    }
  }

  /** Appending a member not yet present keeps a list repetition-free, and only then. */
  lemma DistinctFreshLast(keys: seq<Value>)
    requires |keys| > 0 && keys[|keys| - 1] !in keys[..|keys| - 1]
    ensures Distinct(keys) <==> Distinct(keys[..|keys| - 1])
  {
    var last := |keys| - 1;
    var init := keys[..last];
    if Distinct(init) {
      forall i, j | 0 <= i < j < |keys|
        ensures keys[i] != keys[j]
      {
        assert keys[i] == init[i];
        if j < last { assert keys[j] == init[j]; }
      }
    }
  }

  /** A one-url batch without a key returns its result bare, not as a one-element list. */
  lemma SingleUnkeyedIsUnwrapped(v: Value)
    ensures Finalize([VNone], 1, [v]) == Ok(v)
  {
  }

  /** A keyed one-url batch without a parse function returns a one-entry dict. */
  lemma SingleKeyedIsOneEntryDict(k: Value, b: Value)
    requires k != VNone
    ensures Finalize([k], 1, [VDict(map[k := b])]) == Ok(VDict(map[k := b]))
  {
    var rs := [VDict(map[k := b])];
    var ms := EntryMaps(rs).value;
    assert ms[0] == map[k := b];
    assert k in AllKeys(ms);
    SameEntries(Flatten(rs).value, map[k := b]);
  }

  /**
   * A result that is not a dict is still merged when it can be iterated and
   * subscripted: a list of indices into itself contributes each index paired
   * with the element it selects, beside the keyed dict.
   */
  lemma ListResultIsMerged(k: Value, body: Value, xs: seq<Value>)
    requires k != VNone && k !in xs
    requires forall i :: 0 <= i < |xs| ==> xs[i].VInt? && -|xs| <= xs[i].i < |xs|
    ensures var r := Finalize([k, VNone], 2, [VDict(map[k := body]), VList(xs)]);
            && r.Ok? && r.value.VDict? && k in r.value.entries && r.value.entries[k] == body
            && forall i :: 0 <= i < |xs| ==>
                 xs[i] in r.value.entries && r.value.entries[xs[i]] == Index(xs, xs[i]).value
  {
    var rs := [VDict(map[k := body]), VList(xs)];
    FinalizeMerges([k, VNone], rs);
    var ms := EntryMaps(rs).value;
    assert ms[0] == map[k := body];
    assert k !in ms[1];
    assert k in AllKeys(ms);
    forall i | 0 <= i < |xs|
      ensures xs[i] in AllKeys(ms) && LastHolder(ms, xs[i]) == 1
    {
      assert xs[i] in ms[1];
    }
  }

  /** A keyed batch whose first result is a dict merges into the flattened dict whenever flattening succeeds. */
  lemma FinalizeMerges(keys: seq<Value>, rs: seq<Value>)
    requires |keys| >= 1 && keys[0] != VNone && |rs| >= 1 && rs[0].VDict? && Flatten(rs).Ok?
    ensures Finalize(keys, |rs|, rs) == Ok(VDict(Flatten(rs).value))
  {
  }

  /** A non-empty string among the results cannot be subscripted by its characters: TypeError. */
  lemma StringResultIsTypeError(k: Value, body: Value, text: string)
    requires k != VNone && |text| > 0
    ensures Finalize([k, VNone], 2, [VDict(map[k := body]), VStr(text)]) == Err(TypeError)
  {
    assert Entries(VStr(text)) == Err(TypeError);
  }

  /** Without keys the results stay a list in completion order, not in submission order. */
  lemma {:induction false} UnkeyedKeepsCompletionOrder(outcomes: seq<Result<Value>>, order: seq<nat>)
    requires |outcomes| >= 2 && IsPermutation(order, |outcomes|)
    requires forall i :: 0 <= i < |outcomes| ==> outcomes[i].Ok?
    ensures Collect(outcomes, order).Ok?
    ensures var rs := Collect(outcomes, order).value;
            Finalize(seq(|outcomes|, _ => VNone), |outcomes|, rs) == Ok(VList(rs))
            && forall i :: 0 <= i < |outcomes| ==> rs[i] == outcomes[order[i]].value
  {
  }
}

=== FILE: py.dfy ===
/**
 * The fragment of the Python runtime that the request engine touches:
 * dynamically typed values, the exceptions the engine raises or lets
 * through, and the three built-in operations on values whose failure modes
 * shape the engine's behaviour (`len` plus indexing, subscription, hashing).
 */
module Py {

  datatype Option<+T> = None | Some(value: T)

  /** The exception classes that the modelled code raises or lets through. */
  datatype Exc =
    | ClientError(status: int)            // aiohttp.ClientError(status), raised for an HTTP error status
    | ServerConnectionError(status: int)  // aiohttp.ServerConnectionError, a subclass of ClientError
    | ConnectionFailure(reason: string)   // any other transport error of the aiohttp.ClientError family
    | TimeoutError                        // asyncio.TimeoutError: not a ClientError
    | DecodeError                         // the body could not be decoded (json.JSONDecodeError and the like)
    | TypeError
    | IndexError
    | KeyError
    | ValueError
    | ParseError(reason: string)          // anything a caller-supplied parse function raises

  /** The exceptions that `backoff.on_exception(..., aiohttp.ClientError, ...)` catches. */
  predicate IsClientError(e: Exc) {
    e.ClientError? || e.ServerConnectionError? || e.ConnectionFailure?
  }

  /** A computation that either returns a value or raises an exception. */
  datatype Result<+T> = Ok(value: T) | Err(exc: Exc) {
    predicate IsFailure() { Err? }

    function PropagateFailure<U>(): Result<U>
      requires Err?
    {
      Err(exc)
    }

    function Extract(): T
      requires Ok?
    {
      value
    }
  }

  newtype Byte = b: int | 0 <= b < 256

  /** A pandas data-frame row: column name to cell. */
  type Row = map<Value, Value>

  /** A Python value as far as the engine distinguishes them. */
  datatype Value =
    | VNone
    | VInt(i: int)
    | VStr(s: string)
    | VBytes(bytes: seq<Byte>)
    | VList(items: seq<Value>)
    | VTuple(elems: seq<Value>)
    | VDict(entries: map<Value, Value>)
    | VFrame(rows: seq<Row>)              // pandas.DataFrame, row by row

  /**
   * `hash(v)` succeeds: None, numbers, strings, bytes, and tuples of hashable
   * values; lists, dicts and frames are unhashable.
   */
  predicate Hashable(v: Value) {
    match v
    case VList(_) => false
    case VDict(_) => false
    case VFrame(_) => false
    case VTuple(elems) => forall i :: 0 <= i < |elems| ==> Hashable(elems[i])
    case _ => true
  }

  /**
   * The items a value exposes to `len(v)`, to `v[n]` for `0 <= n < len(v)` and
   * to `for x in v`. Lists and tuples expose their elements, bytes their
   * integer codes and strings their one-character substrings; None and
   * integers are not sequences (TypeError). A dict or a frame is never indexed
   * by position in the modelled code (a dict is wrapped first), so both are
   * reported as TypeError.
   */
  function AsList(v: Value): (r: Result<seq<Value>>)
    ensures v.VList? ==> r == Ok(v.items)
    ensures v.VTuple? ==> r == Ok(v.elems)
    ensures v.VBytes? ==>
              && r.Ok? && |r.value| == |v.bytes|
              && forall n :: 0 <= n < |v.bytes| ==> r.value[n] == VInt(v.bytes[n] as int)
    ensures v.VStr? ==>
              && r.Ok? && |r.value| == |v.s|
              && forall n :: 0 <= n < |v.s| ==> r.value[n] == VStr([v.s[n]])
    ensures r.Ok? <==> v.VList? || v.VTuple? || v.VBytes? || v.VStr?
  {
    match v
    case VList(items) => Ok(items)
    case VTuple(elems) => Ok(elems)
    case VBytes(b) => Ok(seq(|b|, n requires 0 <= n < |b| => VInt(b[n] as int)))
    case VStr(s) => Ok(seq(|s|, n requires 0 <= n < |s| => VStr([s[n]])))
    case _ => Err(TypeError)
  }

  /**
   * `xs[key]` on a sequence: an integer index, negative ones counting from the
   * end; IndexError when out of range and TypeError for a non-integer index.
   */
  function Index(xs: seq<Value>, key: Value): (r: Result<Value>)
    ensures r.Ok? <==> key.VInt? && -|xs| <= key.i < |xs|
    ensures r.Ok? ==> r.value == xs[if key.i >= 0 then key.i else |xs| + key.i]
    ensures r.Err? ==> r.exc == (if key.VInt? then IndexError else TypeError)
  {
    if !key.VInt? then Err(TypeError)
    else if 0 <= key.i < |xs| then Ok(xs[key.i])
    else if -|xs| <= key.i < 0 then Ok(xs[|xs| + key.i])
    else Err(IndexError)
  }

  /**
   * `container[key]` on a dict (TypeError for an unhashable key, KeyError when
   * absent) or on a list, tuple, string or bytes value (an index into
   * `AsList(container)`). None and integers are not subscriptable;
   * subscripting a frame selects a column, which the value model does not
   * represent, so it is reported as TypeError.
   */
  function GetItem(container: Value, key: Value): (r: Result<Value>)
    ensures container.VDict? ==> (r.Ok? <==> Hashable(key) && key in container.entries)
    ensures container.VDict? && Hashable(key) && key in container.entries ==> r.value == container.entries[key]
    ensures container.VDict? && !r.Ok? ==> r.exc == (if Hashable(key) then KeyError else TypeError)
    ensures !container.VDict? ==> r == (if AsList(container).Ok? then Index(AsList(container).value, key) else Err(TypeError))
    ensures r.Ok? ==> container.VDict? || AsList(container).Ok?
  {
    if container.VDict? then
      if !Hashable(key) then Err(TypeError)
      else if key in container.entries then Ok(container.entries[key]) else Err(KeyError)
    else
      var xs :- AsList(container);
      Index(xs, key)
  }
}

=== FILE: text.dfy ===
/**
 * Python's `str.split(sep)` and `sep.join(parts)` for a non-empty separator,
 * and the `if len(p) > 0` filter the proxy-list reader applies to the lines.
 */
module Text {
  import opened Py

  /** `sep` occurs in `s` starting at index `i`. */
  predicate OccursAt(s: string, sep: string, i: nat) {
    i + |sep| <= |s| && s[i..i + |sep|] == sep
  }

  ghost predicate Contains(s: string, sep: string) {
    exists i: nat :: OccursAt(s, sep, i)
  }

  /** No proper prefix of `sep` is also a suffix of it, so two occurrences never overlap. */
  ghost predicate BorderFree(sep: string) {
    forall k :: 0 < k < |sep| ==> sep[..k] != sep[|sep| - k..]
  }

  function FindFrom(s: string, sep: string, from: nat): (r: Option<nat>)
    requires |sep| > 0
    ensures r.Some? ==> from <= r.value && OccursAt(s, sep, r.value)
    ensures forall j: nat :: from <= j && (r.Some? ==> j < r.value) ==> !OccursAt(s, sep, j)
    decreases |s| - from
  {
    if from + |sep| > |s| then None
    else if s[from..from + |sep|] == sep then Some(from)
    else FindFrom(s, sep, from + 1)
  }

  /** `s.find(sep)`: the first index at which `sep` occurs. */
  function Find(s: string, sep: string): (r: Option<nat>)
    requires |sep| > 0
    ensures r.Some? ==> OccursAt(s, sep, r.value)
    ensures r.Some? ==> forall j: nat :: j < r.value ==> !OccursAt(s, sep, j)
    ensures r.None? <==> !Contains(s, sep)
  {
    FindFrom(s, sep, 0)
  }

  /** `sep.join(parts)`. */
  function Join(parts: seq<string>, sep: string): string {
    if |parts| == 0 then ""
    else if |parts| == 1 then parts[0]
    else parts[0] + sep + Join(parts[1..], sep)
  }

  lemma OccursInPrefix(s: string, sep: string, i: nat, j: nat)
    requires i <= |s| && OccursAt(s[..i], sep, j)
    ensures OccursAt(s, sep, j)
  {
    assert s[..i][j..j + |sep|] == s[j..j + |sep|];
  }

  /**
   * `s.split(sep)`: the pieces between the occurrences of `sep`, found from
   * left to right. Joining them back gives `s`, and no piece holds `sep`.
   */
  function Split(s: string, sep: string): (parts: seq<string>)
    requires |sep| > 0
    ensures |parts| >= 1
    ensures Join(parts, sep) == s
    ensures forall i :: 0 <= i < |parts| ==> !Contains(parts[i], sep)
    decreases |s|
  {
    match Find(s, sep)
    case None => [s]
    case Some(i) =>
      var head := s[..i];
      var rest := Split(s[i + |sep|..], sep);
      assert !Contains(head, sep) by {
        forall j: nat | OccursAt(head, sep, j)
          ensures false
        {
          OccursInPrefix(s, sep, i, j);
        }
      }
      assert s == head + sep + s[i + |sep|..];
      [head] + rest
  }

  function Count(s: string, c: char): nat {
    if |s| == 0 then 0
    else (if s[0] == c then 1 else 0) + Count(s[1..], c)
  }

  lemma {:induction false} CountAppend(a: string, b: string, c: char)
    ensures Count(a + b, c) == Count(a, c) + Count(b, c)
    decreases |a|
  {
    if |a| == 0 {
      assert a + b == b;
    } else {
      assert (a + b)[1..] == a[1..] + b;
      CountAppend(a[1..], b, c);
    }
  }

  lemma CountZero(s: string, c: char)
    requires !Contains(s, [c])
    ensures Count(s, c) == 0
    decreases |s|
  {
    if |s| > 0 {
      assert s[0] != c by { assert !OccursAt(s, [c], 0); }
      assert !Contains(s[1..], [c]) by {
        forall j: nat | OccursAt(s[1..], [c], j)
          ensures false
        {
          assert OccursAt(s, [c], j + 1);
        }
      }
      CountZero(s[1..], c);
    }
  }

  /** Splitting on a one-character separator yields one more piece than there are separators. */
  lemma {:induction false} SplitCharCount(s: string, c: char)
    ensures |Split(s, [c])| == Count(s, c) + 1
    decreases |s|
  {
    match Find(s, [c])
    case None =>
      CountZero(s, c);
    case Some(i) =>
      var tail := s[i + 1..];
      assert s == s[..i] + [c] + tail;
      CountAppend(s[..i] + [c], tail, c);
      CountAppend(s[..i], [c], c);
      assert !Contains(s[..i], [c]) by {
        forall j: nat | OccursAt(s[..i], [c], j)
          ensures false
        {
          OccursInPrefix(s, [c], i, j);
        }
      }
      CountZero(s[..i], c);
      SplitCharCount(tail, c);
  }

  /** An occurrence starting inside `p` and reaching into the separator after it exhibits a border of the separator. */
  lemma OverlapIsBorder(p: string, sep: string, rest: string, j: nat)
    requires j < |p| < j + |sep| && OccursAt(p + sep + rest, sep, j)
    ensures sep[..|sep| - (|p| - j)] == sep[|p| - j..]
  {
    var s := p + sep + rest;
    var k := |p| - j;
    var b := |sep| - k;
    forall m | 0 <= m < b
      ensures sep[..b][m] == sep[k..][m]
    {
      assert s[j..j + |sep|][k + m] == sep[k + m];
      assert s[|p| + m] == sep[m];
    }
  }

  /** The separator found right after a piece that does not contain it is the first occurrence. */
  lemma NoEarlierOccurrence(p: string, sep: string, rest: string, j: nat)
    requires |sep| > 0 && BorderFree(sep) && !Contains(p, sep)
    requires j < |p|
    ensures !OccursAt(p + sep + rest, sep, j)
  {
    var s := p + sep + rest;
    if OccursAt(s, sep, j) {
      if j + |sep| <= |p| {
        assert s[j..j + |sep|] == p[j..j + |sep|];
        assert OccursAt(p, sep, j);
      } else {
        OverlapIsBorder(p, sep, rest, j);
        assert false;
      }
    }
  }

  /** Joining pieces that do not contain a border-free separator and splitting again gives the pieces back. */
  lemma {:induction false} SplitJoin(parts: seq<string>, sep: string)
    requires |sep| > 0 && BorderFree(sep) && |parts| >= 1
    requires forall i :: 0 <= i < |parts| ==> !Contains(parts[i], sep)
    ensures Split(Join(parts, sep), sep) == parts
    decreases |parts|
  {
    if |parts| == 1 {
      assert !Contains(parts[0], sep);
    } else {
      var p := parts[0];
      var rest := Join(parts[1..], sep);
      var s := p + sep + rest;
      assert Join(parts, sep) == s;
      assert OccursAt(s, sep, |p|) by {
        assert s[|p|..|p| + |sep|] == sep;
      }
      forall j: nat | j < |p|
        ensures !OccursAt(s, sep, j)
      {
        NoEarlierOccurrence(p, sep, rest, j);
      }
      assert Find(s, sep) == Some(|p|);
      assert s[..|p|] == p;
      assert s[|p| + |sep|..] == rest;
      SplitJoin(parts[1..], sep);
      assert parts == [p] + parts[1..];
    }
  }

  /** `[p for p in xs if len(p) > 0]`. */
  function NonEmpty(xs: seq<string>): (r: seq<string>)
    ensures |r| <= |xs|
    ensures forall i :: 0 <= i < |r| ==> |r[i]| > 0
    ensures forall x :: x in r <==> x in xs && |x| > 0
  {
    if |xs| == 0 then []
    else if |xs[0]| > 0 then [xs[0]] + NonEmpty(xs[1..])
    else NonEmpty(xs[1..])
  }

  /** The filter keeps input order: it distributes over concatenation. */
  lemma {:induction false} NonEmptyAppend(a: seq<string>, b: seq<string>)
    ensures NonEmpty(a + b) == NonEmpty(a) + NonEmpty(b)
    decreases |a|
  {
    if |a| == 0 {
      assert a + b == b;
    } else {
      assert (a + b)[1..] == a[1..] + b;
      NonEmptyAppend(a[1..], b);
    }
  }

  /** A list without empty strings passes the filter unchanged. */
  lemma {:induction false} NonEmptyKeepsAll(xs: seq<string>)
    requires forall i :: 0 <= i < |xs| ==> |xs[i]| > 0
    ensures NonEmpty(xs) == xs
    decreases |xs|
  {
    if |xs| > 0 {
      NonEmptyKeepsAll(xs[1..]);
    }
  }
}

=== FILE: utils.dfy ===
/**
 * async_requests/utils.py: drawing a user agent or a proxy from a pool and
 * turning the downloaded user-agent and webshare proxy lists into pools.
 * The HTTP fetches are left to the caller: these functions take the text
 * of the response. `random.choice` takes its draw as a parameter.
 */
module Utils {
  import opened Py
  import Text

  /**
   * `random.choice(pool)` where `pick` stands for the random draw: some
   * member of the pool, or IndexError when the pool is empty.
   */
  function Choice<T>(pool: seq<T>, pick: nat): (r: Result<T>)
    ensures r.Ok? <==> |pool| > 0
    ensures r.Ok? ==> r.value in pool
  {
    if |pool| == 0 then Err(IndexError) else Ok(pool[pick % |pool|])
  }

  /** Every member of the pool is a possible outcome of the draw. */
  lemma ChoiceReachesEveryMember<T>(pool: seq<T>, x: T)
    requires x in pool
    ensures exists pick: nat :: Choice(pool, pick) == Ok(x)
  {
    var i :| 0 <= i < |pool| && pool[i] == x;
    assert i % |pool| == i;
    assert Choice(pool, i) == Ok(x);
  }

  /** The header set `{"user-agent": ua}`. */
  function UserAgentHeader(ua: string): Value {
    VDict(map[VStr("user-agent") := VStr(ua)])
  }

  /** `random_user_agent(user_agents, as_dict)`. */
  function RandomUserAgent(userAgents: seq<string>, asDict: bool, pick: nat): (r: Result<Value>)
    ensures r.Ok? <==> |userAgents| > 0
    ensures r.Ok? && asDict ==>
              && r.value.VDict?
              && r.value.entries.Keys == {VStr("user-agent")}
              && r.value.entries[VStr("user-agent")].VStr?
              && r.value.entries[VStr("user-agent")].s in userAgents
    ensures r.Ok? && !asDict ==> r.value.VStr? && r.value.s in userAgents
  {
    var ua :- Choice(userAgents, pick);
    if asDict then Ok(UserAgentHeader(ua)) else Ok(VStr(ua))
  }

  /** The argument of `random_proxy`: None, one proxy URI, or a list of them. */
  datatype ProxyArg = NoProxies | OneProxy(uri: string) | ProxyList(uris: seq<string>)

  /** `random_proxy(proxies)`. */
  function RandomProxy(proxies: ProxyArg, pick: nat): (r: Result<Option<string>>)
    ensures proxies.NoProxies? ==> r == Ok(None)
    ensures proxies.OneProxy? ==> r == Ok(Some(proxies.uri))
    ensures proxies.ProxyList? ==> (r.Ok? <==> |proxies.uris| > 0)
    ensures proxies.ProxyList? && r.Ok? ==> r.value.Some? && r.value.value in proxies.uris
  {
    match proxies
    case NoProxies => Ok(None)
    case OneProxy(uri) => Ok(Some(uri))
    case ProxyList(uris) =>
      var uri :- Choice(uris, pick);
      Ok(Some(uri))
  }

  /** `get_user_agents` once the text is fetched: one pool entry per line. */
  function UserAgentList(text: string): (r: seq<string>)
    ensures |r| == Text.Count(text, '\n') + 1
    ensures Text.Join(r, "\n") == text
    ensures forall i :: 0 <= i < |r| ==> !Text.Contains(r[i], "\n")
  {
    Text.SplitCharCount(text, '\n');
    Text.Split(text, "\n")
  }

  /**
   * `dict(zip(["ip", "port", "user", "pw"], line.split(":")))`: the first
   * four fields under their names; `zip` drops any further field.
   */
  function ProxyFields(line: string): (r: map<string, string>)
    ensures var parts := Text.Split(line, ":");
            && ("ip" in r <==> |parts| > 0) && ("port" in r <==> |parts| > 1)
            && ("user" in r <==> |parts| > 2) && ("pw" in r <==> |parts| > 3)
            && ("ip" in r ==> r["ip"] == parts[0]) && ("port" in r ==> r["port"] == parts[1])
            && ("user" in r ==> r["user"] == parts[2]) && ("pw" in r ==> r["pw"] == parts[3])
            && r.Keys <= {"ip", "port", "user", "pw"}
  {
    var parts := Text.Split(line, ":");
    var n := |parts|;
    assert "ip" != "port" && "ip" != "user" && "ip" != "pw";
    assert "port" != "user" && "port" != "pw" && "user" != "pw";
    var m1: map<string, string> := if n > 0 then map["ip" := parts[0]] else map[];
    var m2 := if n > 1 then m1["port" := parts[1]] else m1;
    var m3 := if n > 2 then m2["user" := parts[2]] else m2;
    if n > 3 then m3["pw" := parts[3]] else m3
  }

  /** `f"http://{proxy['user']}:{proxy['pw']}@{proxy['ip']}:{proxy['port']}"`: KeyError for a missing field. */
  function FormatProxy(fields: map<string, string>): (r: Result<string>)
    ensures r.Ok? <==> "ip" in fields && "port" in fields && "user" in fields && "pw" in fields
    ensures r.Err? ==> r.exc == KeyError
  {
    if "user" !in fields || "pw" !in fields || "ip" !in fields || "port" !in fields then Err(KeyError)
    else Ok("http://" + fields["user"] + ":" + fields["pw"] + "@" + fields["ip"] + ":" + fields["port"])
  }

  /** The proxy URI for the fields `ip:port:user:pw` of a line, read positionally. */
  function ProxyUri(parts: seq<string>): string
    requires |parts| >= 4
  {
    "http://" + parts[2] + ":" + parts[3] + "@" + parts[0] + ":" + parts[1]
  }

  /** One export line to its proxy URI: the first four fields are used, fewer raise KeyError. */
  function FormatLine(line: string): (r: Result<string>)
    ensures var parts := Text.Split(line, ":");
            && (r.Ok? <==> |parts| >= 4)
            && (r.Ok? ==> r.value == ProxyUri(parts))
            && (r.Err? ==> r.exc == KeyError)
  {
    FormatProxy(ProxyFields(line))
  }

  /**
   * The lines of an export: split on CRLF, empty lines dropped. Every line
   * kept is a non-empty stretch of the text without a CRLF, and every
   * non-empty piece between CRLFs is kept.
   */
  function ExportLines(text: string): (r: seq<string>)
    ensures forall i :: 0 <= i < |r| ==> |r[i]| > 0 && !Text.Contains(r[i], "\r\n")
    ensures forall x :: x in r <==> x in Text.Split(text, "\r\n") && |x| > 0
  {
    var parts := Text.Split(text, "\r\n");
    var r := Text.NonEmpty(parts);
    assert forall i :: 0 <= i < |r| ==> r[i] in parts;
    r
  }

  /** `[format(line) for line in lines]`: every line formatted in order, the first short one raising. */
  function FormatAll(lines: seq<string>): (r: Result<seq<string>>)
    ensures r.Ok? <==> forall i :: 0 <= i < |lines| ==> FormatLine(lines[i]).Ok?
    ensures r.Ok? ==> |r.value| == |lines|
    ensures r.Ok? ==> forall i :: 0 <= i < |lines| ==> r.value[i] == FormatLine(lines[i]).value
    ensures r.Err? ==> r.exc == KeyError
  {
    if |lines| == 0 then Ok([])
    else
      var first :- FormatLine(lines[0]);
      var rest :- FormatAll(lines[1..]);
      Ok([first] + rest)
  }

  /**
   * `get_webshare_proxy_list` once the export text is fetched: one proxy URI
   * per non-empty line, in order; a line with fewer than four fields raises
   * KeyError.
   */
  function WebshareProxyList(text: string): (r: Result<seq<string>>)
    ensures var lines := ExportLines(text);
            && (r.Ok? <==> forall i :: 0 <= i < |lines| ==> |Text.Split(lines[i], ":")| >= 4)
            && (r.Ok? ==> |r.value| == |lines|)
            && (r.Ok? ==> forall i :: 0 <= i < |lines| ==> r.value[i] == ProxyUri(Text.Split(lines[i], ":")))
            && (r.Err? ==> r.exc == KeyError)
  {
    FormatAll(ExportLines(text))
  }

  /** One proxy of a webshare export. */
  datatype ProxyEntry = ProxyEntry(ip: string, port: string, user: string, pw: string)

  /** The export line of an entry: `ip:port:user:pw`. */
  function ExportLine(e: ProxyEntry): string {
    e.ip + ":" + e.port + ":" + e.user + ":" + e.pw
  }

  /** The URI a client needs for an entry: `http://user:pw@ip:port`. */
  function EntryUri(e: ProxyEntry): string {
    "http://" + e.user + ":" + e.pw + "@" + e.ip + ":" + e.port
  }

  /** Fields of an export: no colons, no line breaks. */
  predicate PlainField(f: string) {
    ':' !in f && '\r' !in f && '\n' !in f
  }

  predicate PlainEntry(e: ProxyEntry) {
    PlainField(e.ip) && PlainField(e.port) && PlainField(e.user) && PlainField(e.pw)
  }

  function ExportLinesOf(entries: seq<ProxyEntry>): (r: seq<string>)
    ensures |r| == |entries|
    ensures forall i :: 0 <= i < |entries| ==> r[i] == ExportLine(entries[i])
  {
    if |entries| == 0 then [] else [ExportLine(entries[0])] + ExportLinesOf(entries[1..])
  }

  function UrisOf(entries: seq<ProxyEntry>): (r: seq<string>)
    ensures |r| == |entries|
    ensures forall i :: 0 <= i < |entries| ==> r[i] == EntryUri(entries[i])
  {
    if |entries| == 0 then [] else [EntryUri(entries[0])] + UrisOf(entries[1..])
  }

  lemma NoCharNoOccurrence(s: string, sep: string)
    requires |sep| > 0 && sep[0] !in s
    ensures !Text.Contains(s, sep)
  {
  }

  lemma CrlfBorderFree()
    ensures Text.BorderFree("\r\n")
  {
    assert "\r\n"[..1] == "\r" && "\r\n"[1..] == "\n";
  }

  /** The fields of an export line split back into the entry's four fields. */
  lemma {:induction false} SplitExportLine(e: ProxyEntry)
    requires PlainEntry(e)
    ensures Text.Split(ExportLine(e), ":") == [e.ip, e.port, e.user, e.pw]
  {
    var parts := [e.ip, e.port, e.user, e.pw];
    forall i | 0 <= i < |parts|
      ensures !Text.Contains(parts[i], ":")
    {
      NoCharNoOccurrence(parts[i], ":");
    }
    assert Text.BorderFree(":");
    assert Text.Join(parts[3..], ":") == e.pw;
    assert Text.Join(parts[2..], ":") == e.user + ":" + e.pw;
    assert Text.Join(parts[1..], ":") == e.port + ":" + e.user + ":" + e.pw;
    assert Text.Join(parts, ":") == ExportLine(e);
    Text.SplitJoin(parts, ":");
  }

  lemma ExportLineIsOneLine(e: ProxyEntry)
    requires PlainEntry(e)
    ensures !Text.Contains(ExportLine(e), "\r\n") && |ExportLine(e)| > 0
  {
    var line := ExportLine(e);
    assert '\r' !in line by {
      assert line == e.ip + (":" + (e.port + (":" + (e.user + (":" + e.pw)))));
    }
    NoCharNoOccurrence(line, "\r\n");
  }

  /** The export's lines, each read back as a proxy URI. */
  lemma {:induction false} FormatExportLines(entries: seq<ProxyEntry>)
    requires forall i :: 0 <= i < |entries| ==> PlainEntry(entries[i])
    ensures FormatAll(ExportLinesOf(entries)) == Ok(UrisOf(entries))
    decreases |entries|
  {
    if |entries| > 0 {
      var e := entries[0];
      SplitExportLine(e);
      assert ProxyUri([e.ip, e.port, e.user, e.pw]) == EntryUri(e);
      assert ExportLinesOf(entries)[1..] == ExportLinesOf(entries[1..]);
      FormatExportLines(entries[1..]);
    }
  }

  /**
   * Reading a webshare export written as CRLF-separated `ip:port:user:pw`
   * lines yields the entries' `http://user:pw@ip:port` URIs, in order.
   */
  lemma {:induction false} WebshareExportRoundTrip(entries: seq<ProxyEntry>)
    requires |entries| > 0
    requires forall i :: 0 <= i < |entries| ==> PlainEntry(entries[i])
    ensures WebshareProxyList(Text.Join(ExportLinesOf(entries), "\r\n")) == Ok(UrisOf(entries))
  {
    var lines := ExportLinesOf(entries);
    forall i | 0 <= i < |lines|
      ensures !Text.Contains(lines[i], "\r\n") && |lines[i]| > 0
    {
      ExportLineIsOneLine(entries[i]);
    }
    CrlfBorderFree();
    Text.SplitJoin(lines, "\r\n");
    Text.NonEmptyKeepsAll(lines);
    FormatExportLines(entries);
  }
}

=== FILE: yahoo.dfy ===
/**
 * `YahooSymbols.search` and `YahooSymbols.lookup` of
 * yahoo_symbols/yahoo_symbols.py: one lookup request per query against the
 * Yahoo Finance lookup endpoint, each result page turned into a frame whose
 * rows are tagged with their query, and the frames concatenated.
 */
module YahooSymbols {
  import opened Py
  import Text
  import Utils
  import Combinations
  import Broadcast
  import Executor
  import Merge
  import Engine

  /** `YahooSymbols.URL`. */
  const LookupUrl: string := "https://query1.finance.yahoo.com/v1/finance/lookup"

  /** The `query` argument of `search`: one string or a list of them. */
  datatype Query = OneQuery(q: string) | QueryList(qs: seq<string>)

  /** The `type_` argument of `search`: one asset type or a list of them. */
  datatype AssetType = OneType(t: string) | TypeList(ts: seq<string>)

  /** Lines 29-30: a string query becomes a one-element list. */
  function Queries(query: Query): (r: seq<string>)
    ensures query.OneQuery? ==> r == [query.q]
    ensures query.QueryList? ==> r == query.qs
  {
    match query
    case OneQuery(q) => [q]
    case QueryList(qs) => qs
  }

  /**
   * Lines 31-32: a list of types is sent as one comma-separated string, from
   * which the server can split the types back as long as no type name
   * contains a comma; one type is sent as it is.
   */
  function TypeParam(type_: AssetType): (r: string)
    ensures type_.OneType? ==> r == type_.t
    ensures type_.TypeList? && |type_.ts| == 0 ==> r == ""
    ensures type_.TypeList? && |type_.ts| >= 1 && (forall i :: 0 <= i < |type_.ts| ==> ',' !in type_.ts[i]) ==>
              Text.Split(r, ",") == type_.ts
  {
    match type_
    case OneType(t) => t
    case TypeList(ts) => TypeListRoundTrip(ts); Text.Join(ts, ",")
  }

  lemma CommaBorderFree()
    ensures Text.BorderFree(",")
  {
  }

  /**
   * The joined type list splits back into the asset types, so no type is
   * lost or merged with another as long as no type name contains a comma.
   */
  lemma TypeListRoundTrip(ts: seq<string>)
    ensures |ts| >= 1 && (forall i :: 0 <= i < |ts| ==> ',' !in ts[i]) ==> Text.Split(Text.Join(ts, ","), ",") == ts
  {
    if |ts| >= 1 && forall i :: 0 <= i < |ts| ==> ',' !in ts[i] {
      forall i | 0 <= i < |ts|
        ensures !Text.Contains(ts[i], ",")
      {
        Utils.NoCharNoOccurrence(ts[i], ",");
      }
      CommaBorderFree();
      Text.SplitJoin(ts, ",");
    }
  }

  /** One lookup request's query parameters, lines 35-41. */
  function SearchParams(q: string, t: string): (r: Value)
    ensures r.VDict? && |r.entries| == 5
    ensures r.entries.Keys == {VStr("formatted"), VStr("query"), VStr("type"), VStr("count"), VStr("start")}
    ensures r.entries[VStr("query")] == VStr(q) && r.entries[VStr("type")] == VStr(t)
    ensures r.entries[VStr("formatted")] == VStr("false")
    ensures r.entries[VStr("count")] == VInt(10000) && r.entries[VStr("start")] == VInt(0)
  {
    VDict(map[VStr("formatted") := VStr("false"), VStr("query") := VStr(q), VStr("type") := VStr(t),
              VStr("count") := VInt(10000), VStr("start") := VInt(0)])
  }

  /** Lines 34-43: one params record per query, in query order. */
  function ParamsList(qs: seq<string>, t: string): (r: seq<Value>)
    ensures |r| == |qs|
    ensures forall i :: 0 <= i < |qs| ==> r[i] == SearchParams(qs[i], t)
  {
    seq(|qs|, i requires 0 <= i < |qs| => SearchParams(qs[i], t))
  }

  /** The queries as the key list handed to the engine. */
  function QueryKeys(qs: seq<string>): (r: seq<Value>)
    ensures |r| == |qs|
    ensures forall i :: 0 <= i < |qs| ==> r[i] == VStr(qs[i])
  {
    seq(|qs|, i requires 0 <= i < |qs| => VStr(qs[i]))
  }

  /**
   * `response["finance"]["result"][0]["documents"]`: only a dict response can
   * hold the documents; a missing field is a KeyError, an empty result list
   * an IndexError and a field of the wrong kind a TypeError.
   */
  function Documents(response: Value): (r: Result<Value>)
    ensures r.Err? ==> r.exc == KeyError || r.exc == IndexError || r.exc == TypeError
    ensures !response.VDict? ==> r == Err(TypeError)
    ensures response.VDict? && VStr("finance") !in response.entries ==> r == Err(KeyError)
    ensures r.Ok? ==> response.VDict? && VStr("finance") in response.entries
  {
    var finance :- GetItem(response, VStr("finance"));
    var result :- GetItem(finance, VStr("result"));
    var first :- GetItem(result, VInt(0));
    GetItem(first, VStr("documents"))
  }

  /** The shape of a lookup response page holding `docs`. */
  function LookupPage(docs: Value): Value {
    VDict(map[VStr("finance") := VDict(map[VStr("result") := VList([VDict(map[VStr("documents") := docs])])])])
  }

  /** The documents are read back from the page that holds them. */
  lemma DocumentsOfPage(docs: Value)
    ensures Documents(LookupPage(docs)) == Ok(docs)
  {
    var first := VDict(map[VStr("documents") := docs]);
    var result := VList([first]);
    var finance := VDict(map[VStr("result") := result]);
    assert GetItem(LookupPage(docs), VStr("finance")) == Ok(finance);
    assert GetItem(finance, VStr("result")) == Ok(result);
    assert GetItem(result, VInt(0)) == Ok(first);
  }

  predicate AllDicts(items: seq<Value>) {
    forall i :: 0 <= i < |items| ==> items[i].VDict?
  }

  /** Every row with the column `query` set to `key`. */
  function TagRows(docs: seq<Value>, key: Value): (rows: seq<Row>)
    requires AllDicts(docs)
    ensures |rows| == |docs|
    ensures forall i :: 0 <= i < |docs| ==> rows[i] == docs[i].entries[VStr("query") := key]
  {
    seq(|docs|, i requires 0 <= i < |docs| => docs[i].entries[VStr("query") := key])
  }

  /**
   * `parse_func(key, response)`, lines 24-27: the documents of the response
   * as frame rows, each with its `query` column set to the key. A missing
   * field fails the task; `search` always passes both arguments.
   */
  function ParseDocuments(args: seq<Value>): (r: Result<Value>)
    ensures |args| != 2 ==> r == Err(TypeError)
    ensures r.Ok? <==> |args| == 2 && Documents(args[1]).Ok? && Documents(args[1]).value.VList?
                       && AllDicts(Documents(args[1]).value.items)
    ensures r.Ok? ==> var docs := Documents(args[1]).value.items;
                      && r.value.VFrame? && |r.value.rows| == |docs|
                      && forall i :: 0 <= i < |docs| ==>
                           && VStr("query") in r.value.rows[i] && r.value.rows[i][VStr("query")] == args[0]
                           && forall c :: c != VStr("query") ==>
                                (c in r.value.rows[i] <==> c in docs[i].entries)
                                && (c in docs[i].entries ==> r.value.rows[i][c] == docs[i].entries[c])
  {
    if |args| != 2 then Err(TypeError)
    else
      var docs :- Documents(args[1]);
      if docs.VList? && AllDicts(docs.items) then Ok(VFrame(TagRows(docs.items, args[0])))
      else Err(TypeError)
  }

  /** The parse function `search` hands to the engine. */
  function Parser(): Executor.ParseFunc {
    Executor.ParseFunc(ParseDocuments)
  }

  predicate AllFrames(items: seq<Value>) {
    forall i :: 0 <= i < |items| ==> items[i].VFrame?
  }

  /** How many rows the frames hold together. */
  function RowCount(items: seq<Value>): nat
    requires AllFrames(items)
  {
    if |items| == 0 then 0 else RowCount(items[..|items| - 1]) + |items[|items| - 1].rows|
  }

  /**
   * `rows` lays out the frames' rows one frame after another: frame `i`'s
   * `j`-th row sits at the number of rows of the frames before it plus `j`,
   * and there are no other rows.
   */
  ghost predicate LaidOut(items: seq<Value>, rows: seq<Row>)
    requires AllFrames(items)
  {
    && |rows| == RowCount(items)
    && forall i, j :: 0 <= i < |items| && 0 <= j < |items[i].rows| ==> Placed(items, rows, i, j)
  }

  /** Row `j` of frame `i` sits in `rows` after the rows of the frames before frame `i`. */
  ghost predicate Placed(items: seq<Value>, rows: seq<Row>, i: nat, j: nat)
    requires AllFrames(items) && i < |items| && j < |items[i].rows|
  {
    RowCount(items[..i]) + j < |rows| && rows[RowCount(items[..i]) + j] == items[i].rows[j]
  }

  /**
   * The rows of all frames, frame after frame, each as often as its frame
   * holds it.
   */
  function Rows(items: seq<Value>): (rows: seq<Row>)
    requires AllFrames(items)
    ensures |rows| == RowCount(items)
    ensures LaidOut(items, rows)
    ensures forall row :: row in rows <==> exists i :: 0 <= i < |items| && row in items[i].rows
  {
    if |items| == 0 then []
    else
      var init := items[..|items| - 1];
      InitFrames(items);
      var front := Rows(init);
      RowsStep(items, front);
      RowsStepMembers(items, front);
      front + items[|items| - 1].rows
  }

  lemma InitFrames(items: seq<Value>)
    requires |items| > 0 && AllFrames(items)
    ensures AllFrames(items[..|items| - 1])
  {
    var init := items[..|items| - 1];
    assert forall i :: 0 <= i < |init| ==> init[i] == items[i];
  }

  /** Appending the last frame's rows to a layout of the frames before it lays out all frames. */
  lemma RowsStep(items: seq<Value>, front: seq<Row>)
    requires |items| > 0 && AllFrames(items) && AllFrames(items[..|items| - 1])
    requires LaidOut(items[..|items| - 1], front)
    ensures LaidOut(items, front + items[|items| - 1].rows)
  {
    var rows := front + items[|items| - 1].rows;
    forall i: int, j: int | 0 <= i < |items| && 0 <= j < |items[i].rows|
      ensures Placed(items, rows, i, j)
    {
      RowsStepAt(items, front, i, j);
    }
    assert |rows| == RowCount(items);
  }

  /** Row `j` of frame `i` after appending the last frame. */
  lemma RowsStepAt(items: seq<Value>, front: seq<Row>, i: nat, j: nat)
    requires |items| > 0 && AllFrames(items) && AllFrames(items[..|items| - 1])
    requires i < |items| && j < |items[i].rows|
    requires LaidOut(items[..|items| - 1], front)
    ensures Placed(items, front + items[|items| - 1].rows, i, j)
  {
    var init := items[..|items| - 1];
    InitPrefix(items, i);
    var k := RowCount(items[..i]) + j;
    if i < |init| {
      assert k == RowCount(init[..i]) + j;
      assert Placed(init, front, i, j);
    } else {
      assert k == |front| + j;
    }
  }

  /** The first `i` frames are the first `i` of the frames before the last one. */
  lemma InitPrefix(items: seq<Value>, i: nat)
    requires |items| > 0 && AllFrames(items) && i < |items|
    ensures AllFrames(items[..|items| - 1])
    ensures i < |items| - 1 ==> items[..i] == items[..|items| - 1][..i] && items[..|items| - 1][i] == items[i]
    ensures i == |items| - 1 ==> items[..i] == items[..|items| - 1]
  {
    InitFrames(items);
  }

  /** The rows of the earlier frames followed by the last frame's are the rows of some frame. */
  lemma RowsStepMembers(items: seq<Value>, front: seq<Row>)
    requires |items| > 0 && AllFrames(items)
    requires var init := items[..|items| - 1];
             forall row :: row in front <==> exists i :: 0 <= i < |init| && row in init[i].rows
    ensures forall row :: row in front ==> exists i :: 0 <= i < |items| && row in items[i].rows
    ensures forall row, i :: 0 <= i < |items| && row in items[i].rows ==> row in front || row in items[|items| - 1].rows
  {
    var init := items[..|items| - 1];
    assert forall i :: 0 <= i < |init| ==> init[i] == items[i];
  }

  /**
   * `pd.concat(frames, ignore_index=True)`: one frame holding the rows of all
   * frames; TypeError for an item that is not a frame, ValueError for no items.
   */
  function ConcatFrames(items: seq<Value>): (r: Result<Value>)
    ensures r.Ok? <==> |items| > 0 && AllFrames(items)
    ensures r.Err? ==> r.exc == (if |items| == 0 then ValueError else TypeError)
    ensures r.Ok? ==> r.value.VFrame?
    ensures r.Ok? ==> forall row :: row in r.value.rows <==> exists i :: 0 <= i < |items| && row in items[i].rows
    ensures r.Ok? ==> |r.value.rows| == RowCount(items) && LaidOut(items, r.value.rows)
  {
    if |items| == 0 then Err(ValueError)
    else if !AllFrames(items) then Err(TypeError)
    else Ok(VFrame(Rows(items)))
  }

  /**
   * The engine call of lines 45-47: `async_requests` with the lookup URL,
   * the params list, the queries as keys and the parse function. The
   * function's own proxy argument is never passed on and its return type
   * defaults to json.
   */
  function SearchRequest(qs: seq<string>, t: string, headers: Value): (r: Engine.Request)
    ensures r.url == VStr(LookupUrl) && r.data == VNone && r.json == VNone
    ensures r.headers == headers && r.proxy == None && r.returnType == Some("json")
    ensures r.parse == Some(Parser())
    ensures r.params.VList? && |r.params.items| == |qs| && r.key.VList? && |r.key.items| == |qs|
    ensures forall i :: 0 <= i < |qs| ==>
              && r.key.items[i] == VStr(qs[i])
              && r.params.items[i] == SearchParams(qs[i], t)
  {
    Engine.Request(VStr(LookupUrl), VList(ParamsList(qs, t)), VNone, VNone, headers, None,
                   VList(QueryKeys(qs)), Some(Parser()), Some("json"))
  }

  /**
   * Every task returned a frame, and `v` is the frame `pd.concat` builds from
   * them in completion order: their rows, frame after frame, each row as
   * often as its frame holds it. So a row is in `v` exactly when it is in
   * some task's frame.
   */
  ghost predicate FrameOfPages(v: Value, outcomes: seq<Result<Value>>, order: seq<nat>) {
    && v.VFrame?
    && (forall n :: 0 <= n < |outcomes| ==> outcomes[n].Ok? && outcomes[n].value.VFrame?)
    && Merge.IsPermutation(order, |outcomes|)
    && AllFrames(Engine.Completed(outcomes, order))
    && v.rows == Rows(Engine.Completed(outcomes, order))
    && forall row :: row in v.rows <==>
         exists n :: 0 <= n < |outcomes| && outcomes[n].Ok? && outcomes[n].value.VFrame? && row in outcomes[n].value.rows
  }

  /**
   * `YahooSymbols.search`: the engine's result, with a list of per-query
   * frames concatenated into one frame. A successful search returns one
   * frame holding exactly the rows of the frames its lookup requests
   * returned, one request per query.
   */
  function Search(headers: Value, useRandomProxy: bool, pools: Executor.Pools,
                  query: Query, type_: AssetType, net: Engine.Network): (r: Result<Value>)
    requires Engine.Schedules(SearchRequest(Queries(query), TypeParam(type_), headers), net)
    ensures r.Ok? ==> !r.value.VList?
    ensures r.Ok? ==> var req := SearchRequest(Queries(query), TypeParam(type_), headers);
              && |Queries(query)| >= 1 && Engine.PlanOf(req).Ok?
              && |Engine.PlanOf(req).value| == |Queries(query)|
              && FrameOfPages(r.value, Engine.Outcomes(Executor.Settings(headers, useRandomProxy), pools, req, net), net.order)
  {
    var req := SearchRequest(Queries(query), TypeParam(type_), headers);
    var s := Executor.Settings(headers, useRandomProxy);
    var res :- Engine.Requests(s, pools, req, net).result;
    SearchRunRows(s, pools, Queries(query), TypeParam(type_), headers, net);
    if res.VList? then ConcatFrames(res.items) else Ok(res)
  }

  /**
   * The engine's result for a successful search: one query's frame as it
   * is, or the list of per-query frames, which together hold exactly the
   * rows of the task frames.
   */
  lemma SearchRunRows(s: Executor.Settings, pools: Executor.Pools, qs: seq<string>, t: string,
                      headers: Value, net: Engine.Network)
    requires Engine.Schedules(SearchRequest(qs, t, headers), net)
    requires Engine.Run(s, pools, SearchRequest(qs, t, headers), net).Ok?
    ensures |qs| >= 1 && Engine.PlanOf(SearchRequest(qs, t, headers)).Ok?
    ensures var v := Engine.Run(s, pools, SearchRequest(qs, t, headers), net).value;
            var outcomes := Engine.Outcomes(s, pools, SearchRequest(qs, t, headers), net);
            && |outcomes| == |qs|
            && (|qs| == 1 ==> FrameOfPages(v, outcomes, net.order))
            && (|qs| > 1 ==> v.VList? && AllFrames(v.items) && FrameOfPages(VFrame(Rows(v.items)), outcomes, net.order))
  {
    var req := SearchRequest(qs, t, headers);
    if |qs| == 0 {
      EmptyQueryListPlan(t, headers);
    } else {
      SearchPlan(qs, t, headers);
      var f := Engine.FieldsOf(req).value;
      var outcomes := Engine.Outcomes(s, pools, req, net);
      assert Engine.Run(s, pools, req, net) == Engine.Gather(f.keys, outcomes, net.order);
      forall n | 0 <= n < |qs|
        ensures outcomes[n].Ok? && outcomes[n].value.VFrame?
      {
        TaskOutcomeTagged(s, pools, qs, t, headers, net, n);
      }
      GatherFrames(f.keys, outcomes, net.order);
    }
  }

  /**
   * Frames are not dicts, so the engine does not merge them: one is
   * unwrapped, several stay a list in completion order, and either way
   * the rows are exactly those of the task frames.
   */
  lemma GatherFrames(keys: seq<Value>, outcomes: seq<Result<Value>>, order: seq<nat>)
    requires |keys| >= 1 && |outcomes| >= 1 && Merge.IsPermutation(order, |outcomes|)
    requires forall n :: 0 <= n < |outcomes| ==> outcomes[n].Ok? && outcomes[n].value.VFrame?
    ensures Engine.Gather(keys, outcomes, order).Ok?
    ensures var v := Engine.Gather(keys, outcomes, order).value;
            && (|outcomes| == 1 ==> FrameOfPages(v, outcomes, order))
            && (|outcomes| > 1 ==> v.VList? && AllFrames(v.items) && FrameOfPages(VFrame(Rows(v.items)), outcomes, order))
  {
    GatherUnmerged(keys, outcomes, order);
    CompletedRows(outcomes, order);
    if |outcomes| == 1 {
      assert order[0] == 0;
      var f := outcomes[0].value;
      assert Engine.Completed(outcomes, order) == [f];
      assert Rows([f]) == f.rows;
    }
  }

  /** Frame results are gathered without merging: the first unwrapped, or all of them in completion order. */
  lemma GatherUnmerged(keys: seq<Value>, outcomes: seq<Result<Value>>, order: seq<nat>)
    requires |keys| >= 1 && |outcomes| >= 1 && Merge.IsPermutation(order, |outcomes|)
    requires forall n :: 0 <= n < |outcomes| ==> outcomes[n].Ok? && outcomes[n].value.VFrame?
    ensures var results := Engine.Completed(outcomes, order);
            Engine.Gather(keys, outcomes, order) == Ok(if |outcomes| == 1 then results[0] else VList(results))
  {
    var results := Engine.Completed(outcomes, order);
    assert results[0] == outcomes[order[0]].value;
  }

  /** Concatenating the frames in completion order gives the frame `FrameOfPages` describes. */
  lemma CompletedRows(outcomes: seq<Result<Value>>, order: seq<nat>)
    requires Merge.IsPermutation(order, |outcomes|)
    requires forall n :: 0 <= n < |outcomes| ==> outcomes[n].Ok? && outcomes[n].value.VFrame?
    ensures AllFrames(Engine.Completed(outcomes, order))
    ensures FrameOfPages(VFrame(Rows(Engine.Completed(outcomes, order))), outcomes, order)
  {
    var results := Engine.Completed(outcomes, order);
    assert AllFrames(results);
    CompletedMembers(outcomes, order);
  }

  /** A row is in a frame of the completion order exactly when it is in some task's frame. */
  lemma CompletedMembers(outcomes: seq<Result<Value>>, order: seq<nat>)
    requires Merge.IsPermutation(order, |outcomes|)
    requires forall n :: 0 <= n < |outcomes| ==> outcomes[n].Ok? && outcomes[n].value.VFrame?
    ensures var results := Engine.Completed(outcomes, order);
            forall row, i :: 0 <= i < |results| && results[i].VFrame? && row in results[i].rows ==>
              exists n :: 0 <= n < |outcomes| && outcomes[n].Ok? && outcomes[n].value.VFrame? && row in outcomes[n].value.rows
    ensures var results := Engine.Completed(outcomes, order);
            forall row, n :: 0 <= n < |outcomes| && outcomes[n].Ok? && outcomes[n].value.VFrame? && row in outcomes[n].value.rows ==>
              exists i :: 0 <= i < |results| && results[i].VFrame? && row in results[i].rows
  {
    var results := Engine.Completed(outcomes, order);
    forall row, i | 0 <= i < |results| && results[i].VFrame? && row in results[i].rows
      ensures exists n :: 0 <= n < |outcomes| && outcomes[n].Ok? && outcomes[n].value.VFrame? && row in outcomes[n].value.rows
    {
      assert outcomes[order[i]].value == results[i];
    }
    forall n, row | 0 <= n < |outcomes| && row in outcomes[n].value.rows
      ensures exists i :: 0 <= i < |results| && results[i].VFrame? && row in results[i].rows
    {
      assert n in order;
      var i :| 0 <= i < |order| && order[i] == n;
      assert results[i] == outcomes[n].value;
    }
  }

  /**
   * A search for a single query returns that query's frame unchanged: its
   * page's documents, each once and in page order, tagged with the query.
   */
  lemma SingleQuerySearch(headers: Value, useRandomProxy: bool, pools: Executor.Pools,
                          q: string, type_: AssetType, net: Engine.Network)
    requires Engine.Schedules(SearchRequest([q], TypeParam(type_), headers), net)
    requires Search(headers, useRandomProxy, pools, OneQuery(q), type_, net).Ok?
    ensures var req := SearchRequest([q], TypeParam(type_), headers);
            && Engine.PlanOf(req).Ok?
            && Search(headers, useRandomProxy, pools, OneQuery(q), type_, net)
               == Engine.Outcomes(Executor.Settings(headers, useRandomProxy), pools, req, net)[0]
  {
    var req := SearchRequest([q], TypeParam(type_), headers);
    var outcomes := Engine.Outcomes(Executor.Settings(headers, useRandomProxy), pools, req, net);
    var r := Search(headers, useRandomProxy, pools, OneQuery(q), type_, net);
    SingleFrameOfPages(r.value, outcomes, net.order);
  }

  /** Of a single task frame, the concatenation is that frame. */
  lemma SingleFrameOfPages(v: Value, outcomes: seq<Result<Value>>, order: seq<nat>)
    requires |outcomes| == 1 && FrameOfPages(v, outcomes, order)
    ensures Ok(v) == outcomes[0]
  {
    assert order[0] == 0;
    var f := outcomes[0].value;
    assert Engine.Completed(outcomes, order) == [f];
    assert Rows([f]) == f.rows;
  }

  /**
   * For a non-empty query list, one lookup request per query: request `i`
   * goes to the lookup URL with the params record of query `i`, keyed by
   * that query.
   */
  lemma SearchPlan(qs: seq<string>, t: string, headers: Value)
    requires |qs| >= 1
    ensures Engine.PlanOf(SearchRequest(qs, t, headers)).Ok?
    ensures var tasks := Engine.PlanOf(SearchRequest(qs, t, headers)).value;
            && |tasks| == |qs|
            && forall i :: 0 <= i < |qs| ==>
                 tasks[i] == Broadcast.Task(VStr(LookupUrl), SearchParams(qs[i], t), VNone, VNone, VStr(qs[i]))
  {
    var req := SearchRequest(qs, t, headers);
    var ps, ks := ParamsList(qs, t), QueryKeys(qs);
    SearchListed(qs, t, headers);
    Broadcast.AlignedBroadcast(req.url, req.params, req.data, req.json, req.key, |qs|);
    var tasks := Engine.PlanOf(req).value;
    forall i | 0 <= i < |qs|
      ensures tasks[i] == Broadcast.Task(VStr(LookupUrl), SearchParams(qs[i], t), VNone, VNone, VStr(qs[i]))
    {
      assert Broadcast.Pick([VStr(LookupUrl)], i) == VStr(LookupUrl);
      assert Broadcast.Pick(ps, i) == ps[i];
      assert Broadcast.Pick([VNone], i) == VNone;
      assert Broadcast.Pick(ks, i) == ks[i];
    }
  }

  /** The argument lists of a search request after `_to_list`, aligned to the query count. */
  lemma SearchListed(qs: seq<string>, t: string, headers: Value)
    requires |qs| >= 1
    ensures var req := SearchRequest(qs, t, headers);
            && Broadcast.Listed(req.url) == Ok([VStr(LookupUrl)])
            && Broadcast.Listed(req.params) == Ok(ParamsList(qs, t))
            && Broadcast.Listed(req.data) == Ok([VNone]) && Broadcast.Listed(req.json) == Ok([VNone])
            && Broadcast.Listed(req.key) == Ok(QueryKeys(qs))
            && Broadcast.Aligned(req.url, req.params, req.data, req.json, req.key, |qs|)
  {
    var req := SearchRequest(qs, t, headers);
    assert Broadcast.Listed(req.url) == Ok([VStr(LookupUrl)]);
    assert Broadcast.Listed(req.params) == Ok(ParamsList(qs, t));
    assert Broadcast.Listed(VNone) == Ok([VNone]);
    assert Broadcast.Listed(req.key) == Ok(QueryKeys(qs));
  }

  /**
   * An empty query list is not caught: the url is a single string, the
   * params list is empty, so building the first request raises IndexError.
   */
  lemma EmptyQueryListPlan(t: string, headers: Value)
    ensures Engine.PlanOf(SearchRequest([], t, headers)) == Err(IndexError)
  {
    var req := SearchRequest([], t, headers);
    assert Broadcast.Listed(req.params) == Ok([]);
  }

  /** So a search over no queries fails with that IndexError. */
  lemma EmptyQueryListFails(headers: Value, useRandomProxy: bool, pools: Executor.Pools,
                            type_: AssetType, net: Engine.Network)
    ensures Engine.Schedules(SearchRequest([], TypeParam(type_), headers), net)
    ensures Search(headers, useRandomProxy, pools, QueryList([]), type_, net) == Err(IndexError)
  {
    EmptyQueryListPlan(TypeParam(type_), headers);
  }

  /** Every row of the frame carries one of the queries in its `query` column. */
  predicate TaggedFrame(v: Value, qs: seq<string>) {
    v.VFrame? && forall row :: row in v.rows ==> VStr("query") in row && row[VStr("query")] in QueryKeys(qs)
  }

  /** Every row of the frame carries `q` in its `query` column. */
  predicate TaggedWith(v: Value, q: Value) {
    v.VFrame? && forall row :: row in v.rows ==> VStr("query") in row && row[VStr("query")] == q
  }

  /** A successful lookup request returns the frame of its page, tagged with its own query. */
  lemma TaskOutcomeTagged(s: Executor.Settings, pools: Executor.Pools, qs: seq<string>, t: string,
                          headers: Value, net: Engine.Network, n: nat)
    requires |qs| >= 1 && n < |qs|
    requires Engine.Outcomes(s, pools, SearchRequest(qs, t, headers), net)[n].Ok?
    ensures TaggedWith(Engine.Outcomes(s, pools, SearchRequest(qs, t, headers), net)[n].value, VStr(qs[n]))
  {
    var req := SearchRequest(qs, t, headers);
    SearchPlan(qs, t, headers);
    var task := Engine.PlanOf(req).value[n];
    var envs := Engine.TaskEnvs(net, n);
    Executor.ExecutedValueIsShaped(s, pools, Engine.CallOf(req), task, envs);
    var v := Engine.Outcomes(s, pools, req, net)[n].value;
    assert v.VFrame?;
    assert QueryKeys(qs)[n] == VStr(qs[n]);
    forall row | row in v.rows
      ensures VStr("query") in row && row[VStr("query")] == VStr(qs[n])
    {
      var j :| 0 <= j < |v.rows| && v.rows[j] == row;
    }
  }

  /**
   * A successful lookup request's frame is its page as `parse_func` reads
   * it: the documents of the json body of one attempt that got a response,
   * each tagged with the request's query.
   */
  lemma TaskOutcomeIsParsedPage(s: Executor.Settings, pools: Executor.Pools, qs: seq<string>, t: string,
                                headers: Value, net: Engine.Network, n: nat)
    requires |qs| >= 1 && n < |qs|
    requires Engine.Outcomes(s, pools, SearchRequest(qs, t, headers), net)[n].Ok?
    ensures exists a :: 0 <= a < Executor.MaxTries && net.attempt(n, a).wire.Responded?
              && net.attempt(n, a).wire.payload.json.Ok?
              && Engine.Outcomes(s, pools, SearchRequest(qs, t, headers), net)[n]
                 == ParseDocuments([VStr(qs[n]), net.attempt(n, a).wire.payload.json.value])
  {
    var req := SearchRequest(qs, t, headers);
    SearchPlan(qs, t, headers);
    var task := Engine.PlanOf(req).value[n];
    var envs := Engine.TaskEnvs(net, n);
    Executor.ExecutedValueIsShaped(s, pools, Engine.CallOf(req), task, envs);
    var a :| 0 <= a < Executor.MaxTries && envs[a].wire.Responded?
             && Executor.DecodeBody(Some("json"), envs[a].wire.payload).Ok?
             && Executor.Execute(s, pools, Engine.CallOf(req), task, envs)
                == Executor.Shape(task.key, Executor.DecodeBody(Some("json"), envs[a].wire.payload).value, Some(Parser()));
    assert envs[a] == net.attempt(n, a);
  }

  /** Frames tagged with the queries stay tagged when concatenated. */
  lemma ConcatTagged(items: seq<Value>, qs: seq<string>)
    requires forall i :: 0 <= i < |items| ==> TaggedFrame(items[i], qs)
    requires ConcatFrames(items).Ok?
    ensures TaggedFrame(ConcatFrames(items).value, qs)
  {
    var v := ConcatFrames(items).value;
    forall row | row in v.rows
      ensures VStr("query") in row && row[VStr("query")] in QueryKeys(qs)
    {
      var i :| 0 <= i < |items| && row in items[i].rows;
      assert TaggedFrame(items[i], qs);
    }
  }

  /**
   * The engine returns, for a successful search, either the single page's
   * frame (one query) or the list of per-query frames in completion order.
   */
  lemma GatheredFrames(s: Executor.Settings, pools: Executor.Pools, qs: seq<string>, t: string,
                       headers: Value, net: Engine.Network)
    requires |qs| >= 1 && Engine.Schedules(SearchRequest(qs, t, headers), net)
    requires Engine.Run(s, pools, SearchRequest(qs, t, headers), net).Ok?
    ensures var v := Engine.Run(s, pools, SearchRequest(qs, t, headers), net).value;
            || TaggedFrame(v, qs)
            || (v.VList? && forall i :: 0 <= i < |v.items| ==> TaggedFrame(v.items[i], qs))
  {
    var req := SearchRequest(qs, t, headers);
    SearchPlan(qs, t, headers);
    var f := Engine.FieldsOf(req).value;
    var outcomes := Engine.Outcomes(s, pools, req, net);
    assert Engine.Run(s, pools, req, net) == Engine.Gather(f.keys, outcomes, net.order);
    forall n | 0 <= n < |qs|
      ensures outcomes[n].Ok? && TaggedFrame(outcomes[n].value, qs)
    {
      TaskOutcomeTagged(s, pools, qs, t, headers, net, n);
      var v := outcomes[n].value;
      assert QueryKeys(qs)[n] == VStr(qs[n]);
      assert forall row :: row in v.rows ==> row[VStr("query")] in QueryKeys(qs);
    }
    GatherTagged(f.keys, outcomes, net.order, qs);
  }

  /**
   * Tagged frames are not dicts, so the engine does not merge them: one is
   * unwrapped, several stay a list.
   */
  lemma GatherTagged(keys: seq<Value>, outcomes: seq<Result<Value>>, order: seq<nat>, qs: seq<string>)
    requires |keys| >= 1 && |outcomes| >= 1 && Merge.IsPermutation(order, |outcomes|)
    requires forall n :: 0 <= n < |outcomes| ==> outcomes[n].Ok? && TaggedFrame(outcomes[n].value, qs)
    ensures Engine.Gather(keys, outcomes, order).Ok?
    ensures var v := Engine.Gather(keys, outcomes, order).value;
            || TaggedFrame(v, qs)
            || (v.VList? && forall i :: 0 <= i < |v.items| ==> TaggedFrame(v.items[i], qs))
  {
    Merge.CollectOnPermutation(outcomes, order);
    var results := Merge.Collect(outcomes, order).value;
    assert forall i :: 0 <= i < |results| ==> results[i] == outcomes[order[i]].value;
    assert results[0].VFrame?;
  }

  /**
   * Every row a successful search returns carries, in its `query` column,
   * one of the queries searched for.
   */
  lemma SearchRowsTagged(headers: Value, useRandomProxy: bool, pools: Executor.Pools,
                         query: Query, type_: AssetType, net: Engine.Network)
    requires Engine.Schedules(SearchRequest(Queries(query), TypeParam(type_), headers), net)
    requires Search(headers, useRandomProxy, pools, query, type_, net).Ok?
    ensures TaggedFrame(Search(headers, useRandomProxy, pools, query, type_, net).value, Queries(query))
  {
    var qs := Queries(query);
    var t := TypeParam(type_);
    var req := SearchRequest(qs, t, headers);
    var s := Executor.WithCallHeaders(Executor.Settings(headers, useRandomProxy), headers);
    if |qs| == 0 {
      EmptyQueryListFails(headers, useRandomProxy, pools, type_, net);
    } else {
      GatheredFrames(s, pools, qs, t, headers, net);
      var v := Engine.Run(s, pools, req, net).value;
      if v.VList? {
        ConcatTagged(v.items, qs);
      }
    }
  }

  /**
   * `lookup`'s queries: every string of `query_length` alphabet symbols (only
   * the empty string when the length is not positive), in lexicographic
   * order, each once.
   */
  function LookupQueries(queryLength: int): (r: seq<string>)
    ensures var n := if queryLength <= 0 then 0 else queryLength;
            && |r| == Combinations.Pow(38, n)
            && (forall s :: s in r <==> Combinations.Word(Combinations.Alphabet, s, n))
            && Combinations.Sorted(Combinations.Alphabet, r)
            && Combinations.NoDuplicates(r)
  {
    var n := if queryLength <= 0 then 0 else queryLength;
    Combinations.LookupQuerySpace(n);
    assert Combinations.Product(Combinations.Alphabet, queryLength) == Combinations.Product(Combinations.Alphabet, n);
    Combinations.Product(Combinations.Alphabet, queryLength)
  }

  /**
   * `YahooSymbols.lookup`: a search over the generated queries. Its own
   * concatenation of a list result (lines 64-65) never applies, since
   * `search` never returns a list, and is left out.
   */
  function Lookup(queryLength: int, headers: Value, useRandomProxy: bool, pools: Executor.Pools,
                  type_: AssetType, net: Engine.Network): (r: Result<Value>)
    requires Engine.Schedules(SearchRequest(LookupQueries(queryLength), TypeParam(type_), headers), net)
    ensures r.Ok? ==> TaggedFrame(r.value, LookupQueries(queryLength))
    ensures r.Ok? ==> var req := SearchRequest(LookupQueries(queryLength), TypeParam(type_), headers);
              && Engine.PlanOf(req).Ok?
              && FrameOfPages(r.value, Engine.Outcomes(Executor.Settings(headers, useRandomProxy), pools, req, net), net.order)
  {
    var query := QueryList(LookupQueries(queryLength));
    var r := Search(headers, useRandomProxy, pools, query, type_, net);
    if r.Ok? then SearchRowsTagged(headers, useRandomProxy, pools, query, type_, net); r else r
  }

  /**
   * The lookup for `query_length = n` makes `38^n` requests, one per string
   * of `n` alphabet symbols, in lexicographic order, each keyed by its query
   * and no two with the same key.
   */
  lemma LookupPlan(n: nat, t: string, headers: Value)
    ensures Engine.PlanOf(SearchRequest(LookupQueries(n), t, headers)).Ok?
    ensures var tasks := Engine.PlanOf(SearchRequest(LookupQueries(n), t, headers)).value;
            && |tasks| == Combinations.Pow(38, n)
            && (forall i :: 0 <= i < |tasks| ==>
                  (&& tasks[i].key.VStr?
                   && Combinations.Word(Combinations.Alphabet, tasks[i].key.s, n)
                   && tasks[i].params == SearchParams(tasks[i].key.s, t)))
            && Merge.Distinct(Engine.KeysOf(tasks))
  {
    var qs := LookupQueries(n);
    Combinations.LookupQuerySpace(n);
    Combinations.AlphabetShape();
    assert |qs| >= 1 by {
      Combinations.ProductLength(Combinations.Alphabet, n);
      PowPositive(38, n);
    }
    SearchPlan(qs, t, headers);
    var tasks := Engine.PlanOf(SearchRequest(qs, t, headers)).value;
    forall i | 0 <= i < |tasks|
      ensures Combinations.Word(Combinations.Alphabet, tasks[i].key.s, n)
    {
      assert qs[i] in qs;
    }
  }

  lemma {:induction false} PowPositive(b: nat, n: nat)
    requires b >= 1
    ensures Combinations.Pow(b, n) >= 1
  {
    if n > 0 {
      PowPositive(b, n - 1);
    }
  }
}
